=== FILE: README.md ===
# Calendar slot booking — a Dafny model

This project models the calendar slot-booking core of a small Flask
application for vehicle servicing. Customers ask which time slots a date
offers and book one; each booking also schedules a service ticket.
Administrators tune the slot settings and mark dates as non-working. The
model covers:

- the availability query (`get_available_slots`): the weekend rule, the
  non-working-day rule, and the lazy get-or-create of one slot per
  configured time label;
- booking a slot (`book_slot`): the refusals, the committed booking and
  occupancy increment, and the 12-hour label parse that schedules the ticket;
- the slot settings handler (`manage_slot_settings`): the POST merge with
  clamping, and the GET view with defaults filled in;
- the non-working-day handler (`manage_non_working_days`): marking a date
  cascades to its slots and bookings, and unmarking reopens the slots;
- account identity: `get_id` / `real_id` and the prefix decoding in
  `load_user`;
- the status guard of `cancel_service`.

The database is an immutable `Store` value. None of the modelled handlers
deletes a slot, a booking or a service ticket, so each of them is a
sequence whose row id is its index plus one. Non-working days can be deleted, so each record carries
its own id, and the store keeps a counter for the next one. Every handler
is a pure function from a store and a request to a new store and an outcome.
Each outcome constructor stands for one HTTP reply of the handler.

Modules, one per file:

| file | module | contents |
|---|---|---|
| wrappers.dfy | Wrappers | `Option` |
| text.dfy | Text | ASCII digits and whitespace, decimal numerals |
| dates.dfy | Dates | proleptic Gregorian dates, the ordinal day and the weekday, as Python's `date` computes them |
| clock.dfy | Clock | `strptime(label, '%I:%M %p')` and the matching printer |
| principals.dfy | Principals | `get_id`, `real_id`, `int(...)`, `str.replace`, `load_user`'s decoding |
| models.dfy | Models | the tables, the defaults, and the store invariants |
| availability.dfy | Availability | `get_available_slots` |
| booking.dfy | Booking | `book_slot` |
| settings.dfy | Settings | `manage_slot_settings` |
| holidays.dfy | Holidays | `manage_non_working_days` (POST and DELETE) |
| services.dfy | Services | `cancel_service` |

Two invariants recur in the properties below. `Valid` covers four facts:

- at most one slot per (date, label) pair;
- every slot has `0 <= current_bookings <= max_bookings` and `max_bookings >= 1`;
- the stored per-day slot count, capacity per slot and booking horizon are positive, and non-working-day records have distinct dates and ids;
- every booking names an existing slot and, once linked, an existing service ticket.

`OccupancySynced` says that each slot's `current_bookings` equals its number of confirmed bookings.

In four places the code does something a reader might not expect; the model follows the code:

- marking a non-working day cancels bookings but does not lower `current_bookings`;
- `book_slot` commits the booking before it parses the slot's time label;
- the settings POST clamps numbers below one to one rather than rejecting them;
- no handler cancels a single slot booking.

## Model

| member | source | states |
|---|---|---|
| Dates.Weekday | routes.py:721-724 | the weekday of a valid date lies in 0..6, numbered from Monday = 0 as `date.weekday()` does |
| Dates.DaysInMonth | routes.py:721 | a month has 28 to 31 days, and exactly 29 only for February of a leap year; this decides which date strings `strptime('%Y-%m-%d')` accepts |
| Dates.DaysBeforeYearIsCount | routes.py:721-724 | the closed-form count of days before a year (the one the weekday uses) equals the year-by-year sum of year lengths |
| Dates.WeekdayOfNextDay | routes.py:724 | consecutive dates have consecutive weekdays modulo 7, so the weekend rule repeats weekly |
| Dates.IsWeekend | routes.py:724 | a date is a weekend day exactly when its weekday is 5 or 6 |
| Dates.WeekendFollowsFriday | routes.py:724 | after a Friday come two weekend days and then a working Monday, by the independent day-by-day calendar |
| Dates.WeekdayAnchor | routes.py:724 | 6 January 2024 is a Saturday (weekday 5, a weekend) and 8 January 2024 a Monday (weekday 0) |
| Clock.To24Hour | routes.py:835 | a 12-hour reading maps to an hour in 0..23 that is in the afternoon exactly when the marker is PM, with the same hour modulo 12 (12 AM is 0, 12 PM is 12) |
| Clock.ParseClock | routes.py:835 | every label the `'%I:%M %p'` parse accepts yields a valid hour and minute |
| Clock.FormatClock | routes.py:736 | printed labels have the shape of "09:00 AM": eight characters, a colon at position 2 and a space at position 5 |
| Clock.ParseFormatClock | routes.py:835 | parsing the printed label of any valid time gives that time back |
| Clock.RefusesMissingMeridiem | routes.py:835 | "09:00", a 24-hour label, is refused |
| Clock.RefusesHourAboveTwelve | routes.py:835 | "13:00 PM" is refused: the hour field only takes 1 to 12 |
| Clock.RefusesMissingSeparator | routes.py:835 | "9:00AM" is refused: the marker must follow whitespace |
| Clock.AcceptsShortLowerCase | routes.py:835 | "9:5 pm" is accepted as 21:05: one-digit fields and a lower-case marker pass |
| Clock.AcceptsWhitespaceRun | routes.py:835 | "12:30  am" is accepted as 00:30: a run of spaces matches the format's one space, and 12 AM is midnight |
| Clock.ParseHour12 | routes.py:835 | the hour field accepts only one or two ASCII digits, with values 1 to 12; a one-digit field is accepted exactly when it is 1 to 9, and a two-digit field exactly when its decimal value is 1 to 12, and either is read as its decimal value |
| Clock.ParseMinute | routes.py:835 | the minute field is accepted exactly when it is one ASCII digit, or two with the first 0 to 5; either is read as its decimal value, which lies in 0 to 59 |
| Clock.RefusesSpacePaddedHour | routes.py:835 | " 9:00 AM" is refused: the hour field has no space-padded form |
| Clock.SeparatorParsesAsSpace | routes.py:835 | any character the pattern's `\s` matches, 0x1C to 0x1F included, may separate the minute from the meridiem, with the same result as a plain space |
| Clock.AcceptsSeparatorAsSpace | routes.py:835 | "09:00" followed by the 0x1C separator and "AM" is accepted as 09:00: that separator is whitespace to the pattern |
| Principals.RealId | models.py:21-23 | `real_id` is the integer key of the account, whichever kind it is |
| Principals.RemoveAll | routes.py:428 | `replace(prefix, '')` never lengthens the text, leaves text without an occurrence unchanged, and deletes a text that is exactly the prefix |
| Principals.ParseInt | routes.py:428 | `int` succeeds exactly when the stripped text is an optional sign and digits with single underscores between them; the sign decides the sign of the result, and a plain numeral is read as its decimal value |
| Principals.GetId | models.py:18-19 | a customer's session id starts with "user_" and an admin's with "admin_", never both |
| Principals.ParseIntOfString | routes.py:428 | `int(str(n)) == n` for every integer, negative ones included |
| Principals.LoadUserOfGetId | routes.py:427-436 | decoding a session id made by `get_id` gives back the same kind of account with the same key |
| Principals.GetIdInjective | models.py:18-19 | two accounts with the same session id are the same account, even when a customer and an admin share a key |
| Principals.RealIdOfLoadedId | models.py:21-23 | the key `load_user` recovers from a session id is the account's `real_id` |
| Principals.LoadUser | routes.py:427-436 | the admin prefix is checked first; a decoded account is an admin exactly when the id starts with "admin_"; ids with neither prefix go to the unmodelled fallback |
| Principals.LoadUserOfPrefixed | routes.py:427-436 | an id made of a prefix and a tail is recognised by that prefix, and the tail, with further copies of the prefix deleted, goes through `int` |
| Principals.RepeatedPrefixDecodes | routes.py:428 | "admin_admin_7" decodes to admin 7, because `replace` removes every occurrence of the prefix |
| Principals.SeparatedDigitsDecode | routes.py:433 | "user_1_0" decodes to customer 10, because `int` accepts digit separators |
| Principals.SeparatedDigitsParse | routes.py:433 | `int("1_0")` is 10 |
| Principals.RemoveAllAfterPlain | routes.py:433 | `replace(prefix, '')` keeps a leading text that holds no character able to start the prefix and works on the rest independently |
| Principals.InnerPrefixDecodes | routes.py:433 | "user_1user_2" decodes to customer 12, because the copy of the prefix in the middle is deleted too |
| Principals.ParseIntIgnoresPadding | routes.py:428 | `int` of a text with whitespace around it is `int` of the text itself |
| Principals.ParseIntOfPlus | routes.py:428 | a leading "+" does not change what `int` makes of an unsigned text |
| Principals.ParseIntOfMinus | routes.py:428 | a leading "-" negates what `int` makes of an unsigned text, and is refused where the text is refused |
| Principals.DropUnderscoresAppend | routes.py:428 | dropping the digit separators of two concatenated digit-and-underscore texts drops them from each part |
| Principals.DropUnderscoresJoins | routes.py:428 | an underscore between two digit groups is dropped and the digits on both sides are kept, in order |
| Models.OrOne | routes.py:763 | `x or 1` on an integer keeps any non-zero value and turns zero into 1 |
| Models.IsFullyBooked | models.py:101-102 | a slot within its capacity is full exactly when its occupancy equals its capacity |
| Models.NotFullHasRoom | models.py:101-102 | a slot within its capacity can take one more booking and stay within it exactly when it is not fully booked |
| Models.EffectiveSlotTimes | routes.py:748-751 | decoded labels are used as they are; an empty or undecodable column stands for the five default labels |
| Models.SettingsInForce | routes.py:733-745 | the stored settings row is used when one exists, and otherwise the defaults (5 slots, 1 booking per slot, 30 days) |
| Models.ConfirmedCountNone | models.py:112 | a slot with no confirmed booking on it has a confirmed count of zero |
| Models.ConfirmedCountPositive | models.py:112 | a slot with a confirmed booking on it has a confirmed count of at least one |
| Models.EmptyStoreValid | models.py:95-97 | the empty database satisfies every invariant and is in sync |
| Availability.FindNonWorkingDay | routes.py:728 | the record found for a date is stored for that date, and none is found exactly when no record has that date |
| Availability.ClosedReason | routes.py:729-730 | a non-empty stored reason is reported as it is, and an empty one as "Non-working day" |
| Availability.FindSlot | routes.py:756 | the first slot with the given date and label, or none exactly when no slot has that key |
| Availability.Materialize | routes.py:755-767 | the get-or-create loop only appends: existing slots keep their positions and contents, and there is one entry per label |
| Availability.MaterializeFindsLabels | routes.py:755-767 | each label's entry names a slot with that date and label |
| Availability.MaterializeNewSlots | routes.py:758-766 | every appended slot is open and empty, has the date and the given capacity, carries one of the labels, and had no slot before |
| Availability.MaterializeKeepsKeysUnique | routes.py:756-767 | the loop never creates a second slot for a (date, label) pair |
| Availability.MaterializeSpec | routes.py:755-767 | the loop's guarantees together: existing slots kept, one slot per label found or created, new slots open and empty with the given capacity, unique keys stay unique |
| Availability.ViewOf | routes.py:774-780 | a reply entry is available exactly when the slot is open and its occupancy is below capacity; it carries the slot's id, label and occupancy |
| Availability.GetAvailableSlots | routes.py:719-796 | an impossible date is refused; weekends close with the weekend reason; a marked date closes with its reason; both change nothing; a working day lists one entry per label in order, keeps existing slots, creates the settings row, creates open, empty slots only for configured labels that had no slot on the date, and never duplicates a slot key |
| Availability.MaterializeCreatesNothing | routes.py:756-758 | when every label already has its slot, nothing is created and the found slots are reused |
| Availability.MaterializeIdempotent | routes.py:755-767 | materializing the same labels twice gives the same table and slots as once |
| Availability.GetAvailableSlotsIdempotent | routes.py:719-786 | repeating a query for the same date changes nothing and gives the same reply |
| Availability.OneSlotPerLabel | routes.py:755-780 | after a working-day query there is exactly one slot for each label on that date, and it is the slot the reply names |
| Availability.ClosedDatesChangeNothing | routes.py:724-730 | weekends, marked dates and impossible dates create no slot and no settings row |
| Availability.GetAvailableSlotsPreservesValid | routes.py:732-767 | the query keeps every store invariant |
| Availability.SyncAfterGrowth | routes.py:760-766 | appending slots with no bookings keeps every count in sync when no booking refers beyond the old table |
| Availability.GetAvailableSlotsPreservesSync | routes.py:760-766 | the query keeps each slot's occupancy equal to its confirmed bookings |
| Booking.Occupied | routes.py:827 | a booked slot has one more booking and is otherwise unchanged |
| Booking.BookSlot | routes.py:801-857 | an unknown slot and a full slot are refused with nothing changed; otherwise a confirmed booking is added and the slot's count is raised; the ticket is scheduled at the slot's date and parsed time when the label parses; otherwise the booking stays committed without a ticket |
| Booking.ConfirmedCountAppend | models.py:112 | appending a booking raises its slot's confirmed count by one exactly when it is confirmed |
| Booking.BookingRaisesOneSlot | routes.py:810-830 | booking a slot that is not full always succeeds, adds exactly one booking, and raises only that slot's count, by one |
| Booking.OccupiedTableOk | routes.py:814-827 | occupying a slot that is not full keeps keys unique and occupancy within capacity |
| Booking.BookSlotPreservesValid | routes.py:810-846 | booking keeps every store invariant; in particular occupancy never exceeds capacity |
| Booking.BookSlotPreservesSync | routes.py:818-830 | booking keeps each slot's occupancy equal to its confirmed bookings |
| Booking.SyncAfterOccupy | routes.py:818-830 | raising one slot's count while appending a confirmed booking on it keeps every count in sync |
| Booking.BookingIgnoresAvailabilityFlag | routes.py:810-815 | the outcome of booking does not depend on the slot's open/closed flag |
| Booking.DefaultLabelParses | routes.py:736 | each default label parses to its hour (9, 11, 13, 15, 17) on the hour |
| Booking.BookingSchedulesPrintedTime | routes.py:833-846 | a slot whose label was printed from a time schedules its ticket at exactly that time and links it to the booking |
| Booking.SpacePaddedLabelLeavesBookingWithoutService | routes.py:826-835 | a slot labelled " 9:00 AM" takes the booking, then fails the parse: the booking stays confirmed with no ticket |
| Booking.UnparsableLabelLeavesBookingWithoutService | routes.py:826-835 | a slot labelled "09:00" takes the booking and the increment, then fails the parse: the booking stays confirmed with no ticket |
| Settings.AtLeastOne | routes.py:947 | `max(1, v)` is at least one and at least `v`, and is `v` or 1 |
| Settings.MergeNumber | routes.py:946-950 | an absent field keeps the stored number; a given positive number is stored as it is, and a given number below one is stored as 1 |
| Settings.Merge | routes.py:942-950 | a non-empty label list replaces the labels and sets the per-day count to its length; otherwise both are kept; the numbers merge field by field |
| Settings.UpdateSlotSettings | routes.py:924-959 | an empty body is refused; a number `int` refuses rolls everything back; otherwise the merge is applied to the stored row, or to the defaults when there is none |
| Settings.OrDefault | routes.py:916-919 | `x or d` keeps a non-zero `x` and gives `d` for zero |
| Settings.ReadSlotSettings | routes.py:905-921 | without a row the GET finds nothing; otherwise it reports the row with 5, 1 and 30 for zero numbers, no labels for an empty column, and the defaults for undecodable text |
| Settings.UpdatePreservesValid | routes.py:946-950 | the update keeps every invariant: the stored numbers stay positive |
| Settings.UpdateIdempotent | routes.py:941-956 | sending the same update twice has the effect of sending it once |
| Settings.ReadAfterUpdate | routes.py:942-950 | a GET after a POST reads back the new labels, their count, and the clamped numbers |
| Settings.EmptyFieldsChangeNothing | routes.py:928-945 | a request with only an empty label list changes no setting, though it creates the default row |
| Settings.QueryAfterUpdate | routes.py:755-767 | the next query of a working day lists one slot per new label, in order; new slots get the clamped capacity and existing slots keep theirs |
| Settings.EmptyColumnReadersDisagree | routes.py:749 | for an empty label column, the GET reports no labels while the availability query uses the five defaults |
| Holidays.SetAvailability | routes.py:1002-1004 | every slot on the date gets the requested flag and every other slot is unchanged |
| Holidays.CancelBookingsOn | routes.py:1005-1007 | every booking on a slot of the date ends cancelled, and every other booking is unchanged |
| Holidays.AddNonWorkingDay | routes.py:982-1011 | an impossible date and an already-marked date are refused with nothing changed; otherwise the record is appended with reason "Holiday" by default, the date's slots are closed and their bookings cancelled, and counters stay as they were |
| Holidays.FindDay | routes.py:1015 | the record found has the requested id and no earlier record has it; none is found exactly when no record has that id |
| Holidays.RemoveNonWorkingDay | routes.py:1013-1028 | an unknown id is refused with nothing changed; otherwise the record is deleted and every slot on its date reopened, while bookings stay as they are |
| Holidays.SetAvailabilityKeepsTable | routes.py:1003-1004 | opening or closing slots changes no key and no count |
| Holidays.AddPreservesValid | models.py:131 | marking a date keeps every invariant, in particular at most one record per date |
| Holidays.DropDayKeepsRecordsOk | routes.py:1025 | deleting one record keeps dates and ids distinct |
| Holidays.RemovePreservesValid | routes.py:1017-1026 | unmarking a date keeps every invariant |
| Holidays.AddBreaksSync | routes.py:1001-1009 | from a store in sync, marking a date with a confirmed booking leaves that booking's slot counting a booking that is no longer confirmed |
| Holidays.QueryAfterAdd | routes.py:727-730 | after a weekday is marked, the availability query reports it closed with the stored reason and changes nothing |
| Holidays.FirstDayMatch | routes.py:728 | a record appended for a date no other record has is the one the query finds |
| Holidays.BookingAfterAdd | routes.py:810-815 | a slot closed by marking its date, but with capacity left, still takes a confirmed booking |
| Holidays.AddThenRemove | routes.py:982-1028 | unmarking right after marking restores the records and reopens every slot on the date, while the cancelled bookings stay cancelled |
| Services.CancelService | routes.py:530-559 | an unknown ticket, a ticket of another owner and a ticket no longer scheduled are refused with nothing changed; otherwise only that ticket becomes cancelled; slots and bookings never change |
| Services.CancelServicePreservesValid | routes.py:544-555 | cancelling a ticket keeps every invariant and keeps occupancy in sync |
| Services.CancelServiceOnce | routes.py:540-542 | a second cancellation of the same ticket is refused as not scheduled |
| Services.CancelledTicketKeepsSeat | routes.py:544-555 | cancelling the ticket a booking created leaves the booking confirmed and the seat counted |
| Services.AdministratorWithSameNumberMayCancel | routes.py:536 | the ownership test compares numbers only: an admin whose key equals the owner's passes it and any other number does not |

## Left out

- HTTP, Flask routing, JSON encoding of replies, flash messages and redirects: each reply is an outcome constructor.
- The login decorators (`api_login_required`, `admin_required`, `login_required`): callers are assumed to be signed in with the right role.
- Database sessions, transactions, rollbacks after a failed commit, and concurrent requests: each handler is one atomic step on an immutable store.
- Errors not tied to a modelled condition (a missing `date` key, a request that is not JSON, a database failure) fall outside the outcomes.
- Principals.LoadUser: the database lookup after decoding and the fallback for ids with neither prefix are not modelled.
- Principals.ParseInt: the non-ASCII digits and whitespace that Python's `int` also accepts are not modelled, nor the limit of 4300 digits beyond which `int` of a decimal string raises ValueError (so `load_user` of a longer id returns None where the model decodes it); account keys are unbounded integers rather than the database's 64-bit integers.
- Clock.ParseClock: the pattern modelled is Python 3.12's `%I` = `1[0-2]|0[1-9]|[1-9]`; later maintenance releases also accept a space before a one-digit hour, which the model refuses.
- Account deletion (`delete_account`) removes a customer's service tickets, which can leave a booking naming a deleted ticket and lets the database reuse the id; the model never deletes tickets, so `ReferencesOk` and the index-based ids are claimed only over the modelled handlers.
- Clock.ParseClock: the non-ASCII digits that the minute field's `\d` also matches ("09:0٥ AM" reads as 09:05) and the non-ASCII whitespace that `\s` also matches are not modelled; such labels are refused by the model.
- Models.EffectiveSlotTimes: JSON text that decodes to something other than a list of strings is not modelled; the column is either missing, undecodable, or a decoded list.
- NULL integer columns are modelled as zero, which `x or default` treats the same way; a NULL `current_bookings` in the full-slot test is not modelled.
- The `booking_advance_days` horizon and the `is_recurring` flag are stored but never evaluated by the code, so the model only stores them.
- Holidays.AddNonWorkingDay: a JSON null reason is stored as the empty string.
- Holidays.AddNonWorkingDay: new record ids come from a counter that never repeats, whereas SQLite may hand out the largest id again after it is deleted.
- Booking.BookSlot: a missing `vehicle_id`, which the database refuses at commit, is not modelled; the slot id is an integer.
- Settings.MergeNumber: `int()` of a JSON number with a fractional part truncates it; the model receives the converted integer.
- The 10-character limit on the slot `time` column is not enforced by SQLite and is not modelled.
- `cancel_service` also writes a service-history row; the history table is not part of this model.
- The text of a date (`strptime(..., '%Y-%m-%d')`) is not parsed: a request carries a (year, month, day) triple, and a triple that names no calendar day stands for the string `strptime` refuses.
- Vehicle, service-ticket and payment forms, registration and login, and the six-month next-service arithmetic lie outside the booking core.
- The listing endpoints (all bookings, the non-working-day list) only read the tables and are not part of this model.

=== FILE: availability.dfy ===
/** The availability query for one date (`get_available_slots`): the weekend
    rule, then the non-working-day rule, then lazy materialization of one slot
    per configured time label, creating the settings row on first use. */
module Availability {
  import opened Wrappers
  import opened Dates
  import opened Models

  /** One entry of the reply's slot list. */
  datatype SlotView = SlotView(
    id: int,
    time: string,
    available: bool,
    currentBookings: int,
    maxBookings: int)

  /** The reply: a date that does not exist (an HTTP 400), a closed date with
      its reason, or an open date with its slots. */
  datatype Reply = InvalidDate | Closed(reason: string) | Open(date: Date, slots: seq<SlotView>)

  const WeekendReason := "Weekend - No bookings available"
  const NonWorkingReason := "Non-working day"

  /** A non-working-day record for `d`, as `filter_by(date=d).first()` finds
      it; under `Valid` dates are unique, so it is the only one. */
  function FindNonWorkingDay(days: seq<NonWorkingDay>, d: Date): (r: Option<NonWorkingDay>)
    ensures r.Some? ==> r.value in days && r.value.date == d
    ensures r.None? <==> forall k :: 0 <= k < |days| ==> days[k].date != d
  {
    if |days| == 0 then None
    else if days[0].date == d then Some(days[0])
    else FindNonWorkingDay(days[1..], d)
  }

  /** The reason reported for a non-working day: the stored one, or a generic
      one when the stored reason is empty. */
  function ClosedReason(day: NonWorkingDay): (r: string)
    ensures |r| > 0
    ensures day.reason != "" ==> r == day.reason
    ensures day.reason == "" ==> r == NonWorkingReason
  {
    if day.reason == "" then NonWorkingReason else day.reason
  }

  /** The index of the first slot for (`d`, `t`). */
  function FindSlot(slots: seq<Slot>, d: Date, t: string): (r: Option<nat>)
    ensures r.Some? ==> r.value < |slots| && slots[r.value].date == d && slots[r.value].time == t
    ensures r.Some? ==> forall i :: 0 <= i < r.value ==> slots[i].date != d || slots[i].time != t
    ensures r.None? <==> forall i :: 0 <= i < |slots| ==> slots[i].date != d || slots[i].time != t
  {
    if |slots| == 0 then None
    else if slots[|slots| - 1].date == d && slots[|slots| - 1].time == t then
      match FindSlot(slots[..|slots| - 1], d, t)
      case Some(i) => Some(i)
      case None => Some(|slots| - 1)
    else FindSlot(slots[..|slots| - 1], d, t)
  }

  /** The get-or-create loop over the labels: for each label in order, the
      existing slot for (`d`, label) is used, or a new open, empty slot with
      the given capacity is appended. Returns the table and the index used
      for each label. What the loop guarantees is stated by
      `MaterializeSpec`. */
  function Materialize(slots: seq<Slot>, d: Date, labels: seq<string>, capacity: int): (r: (seq<Slot>, seq<nat>))
    ensures |slots| <= |r.0| && r.0[..|slots|] == slots
    ensures |r.1| == |labels|
    decreases |labels|
  {
    if |labels| == 0 then (slots, [])
    else
      match FindSlot(slots, d, labels[0])
      case Some(i) =>
        var rest := Materialize(slots, d, labels[1..], capacity);
        (rest.0, [i] + rest.1)
      case None =>
        var grown := slots + [Slot(d, labels[0], capacity, 0, true)];
        var rest := Materialize(grown, d, labels[1..], capacity);
        assert rest.0[..|slots|] == slots by {
          assert rest.0[..|grown|][..|slots|] == grown[..|slots|];
        }
        (rest.0, [|slots|] + rest.1)
  }

  /** Each label's entry names a slot of the table with that date and label. */
  lemma {:induction false} MaterializeFindsLabels(slots: seq<Slot>, d: Date, labels: seq<string>, capacity: int)
    ensures var r := Materialize(slots, d, labels, capacity);
      forall k :: 0 <= k < |labels| ==> r.1[k] < |r.0| && r.0[r.1[k]].date == d && r.0[r.1[k]].time == labels[k]
    decreases |labels|
  {
    if |labels| > 0 {
      var r := Materialize(slots, d, labels, capacity);
      var grown := if FindSlot(slots, d, labels[0]).Some? then slots else slots + [Slot(d, labels[0], capacity, 0, true)];
      MaterializeFindsLabels(grown, d, labels[1..], capacity);
      var rest := Materialize(grown, d, labels[1..], capacity);
      assert r.0 == rest.0 && r.1[1..] == rest.1;
      assert r.0[r.1[0]] == grown[r.1[0]];
      forall k | 1 <= k < |labels|
        ensures r.1[k] < |r.0| && r.0[r.1[k]].date == d && r.0[r.1[k]].time == labels[k]
      {
        assert r.1[k] == rest.1[k - 1] && labels[k] == labels[1..][k - 1];
      }
    }
  }

  /** Every slot of `after` beyond `slots` is open and empty, has date `d`
      and the given capacity, carries one of the labels, and had no slot in
      `slots`. */
  predicate NewSlotsOk(slots: seq<Slot>, after: seq<Slot>, d: Date, labels: seq<string>, capacity: int) {
    forall i :: |slots| <= i < |after| ==>
      && after[i] == Slot(d, after[i].time, capacity, 0, true)
      && after[i].time in labels
      && FindSlot(slots, d, after[i].time).None?
  }

  /** The slots the loop appends are fresh, open and empty. */
  lemma {:induction false} MaterializeNewSlots(slots: seq<Slot>, d: Date, labels: seq<string>, capacity: int)
    ensures NewSlotsOk(slots, Materialize(slots, d, labels, capacity).0, d, labels, capacity)
    decreases |labels|
  {
    if |labels| > 0 {
      var r := Materialize(slots, d, labels, capacity);
      var found := FindSlot(slots, d, labels[0]).Some?;
      var grown := if found then slots else slots + [Slot(d, labels[0], capacity, 0, true)];
      MaterializeNewSlots(grown, d, labels[1..], capacity);
      var rest := Materialize(grown, d, labels[1..], capacity);
      assert r.0 == rest.0;
      assert NewSlotsOk(grown, rest.0, d, labels[1..], capacity);
      forall i | |slots| <= i < |r.0|
        ensures r.0[i] == Slot(d, r.0[i].time, capacity, 0, true)
        ensures r.0[i].time in labels
        ensures FindSlot(slots, d, r.0[i].time).None?
      {
        if i < |grown| {
          assert !found && i == |slots|;
          assert r.0[i] == rest.0[..|grown|][i] == grown[i];
          assert r.0[i].time == labels[0];
        } else {
          InTail(labels, r.0[i].time);
          assert FindSlot(grown, d, r.0[i].time).None?;
          assert forall j :: 0 <= j < |slots| ==> slots[j] == grown[j];
        }
      }
    }
  }

  lemma InTail(labels: seq<string>, x: string)
    requires |labels| > 0 && x in labels[1..]
    ensures x in labels
  {
    var j :| 0 <= j < |labels[1..]| && labels[1..][j] == x;
    assert labels[j + 1] == x;
  }

  /** The loop never creates a second slot for a (date, label) pair. */
  lemma {:induction false} MaterializeKeepsKeysUnique(slots: seq<Slot>, d: Date, labels: seq<string>, capacity: int)
    requires UniqueSlotKeys(slots)
    ensures UniqueSlotKeys(Materialize(slots, d, labels, capacity).0)
    decreases |labels|
  {
    if |labels| > 0 {
      if FindSlot(slots, d, labels[0]).Some? {
        MaterializeKeepsKeysUnique(slots, d, labels[1..], capacity);
      } else {
        var grown := slots + [Slot(d, labels[0], capacity, 0, true)];
        assert UniqueSlotKeys(grown) by {
          assert forall j :: 0 <= j < |slots| ==> grown[j] == slots[j];
        }
        MaterializeKeepsKeysUnique(grown, d, labels[1..], capacity);
      }
    }
  }

  /** The guarantees of the get-or-create loop: existing slots are kept
      unchanged, each label gets a slot with its date and label, new slots
      are open and empty with the given capacity and only for labels that had
      no slot, and unique keys stay unique. */
  lemma MaterializeSpec(slots: seq<Slot>, d: Date, labels: seq<string>, capacity: int)
    ensures var r := Materialize(slots, d, labels, capacity);
      && |slots| <= |r.0| && r.0[..|slots|] == slots
      && |r.1| == |labels|
      && (forall k :: 0 <= k < |labels| ==> r.1[k] < |r.0| && r.0[r.1[k]].date == d && r.0[r.1[k]].time == labels[k])
      && (forall i :: |slots| <= i < |r.0| ==>
            && r.0[i] == Slot(d, r.0[i].time, capacity, 0, true)
            && r.0[i].time in labels
            && FindSlot(slots, d, r.0[i].time).None?)
      && (UniqueSlotKeys(slots) ==> UniqueSlotKeys(r.0))
  {
    MaterializeFindsLabels(slots, d, labels, capacity);
    MaterializeNewSlots(slots, d, labels, capacity);
    if UniqueSlotKeys(slots) {
      MaterializeKeepsKeysUnique(slots, d, labels, capacity);
    }
  }

  /** The reply entry for the slot at index `i`: `available` is the slot's
      flag and not fully booked; a zero capacity is reported as one. */
  function ViewOf(slots: seq<Slot>, i: nat): (v: SlotView)
    requires i < |slots|
    ensures v.id == i + 1 && v.time == slots[i].time
    ensures v.available <==> slots[i].isAvailable && slots[i].currentBookings < slots[i].maxBookings
    ensures v.currentBookings == slots[i].currentBookings
    ensures slots[i].maxBookings >= 1 ==> v.maxBookings == slots[i].maxBookings
  {
    var s := slots[i];
    SlotView(i + 1, s.time, s.isAvailable && !IsFullyBooked(s), s.currentBookings, OrOne(s.maxBookings))
  }

  function ViewsOf(slots: seq<Slot>, ids: seq<nat>): (r: seq<SlotView>)
    requires forall k :: 0 <= k < |ids| ==> ids[k] < |slots|
    ensures |r| == |ids| && forall k :: 0 <= k < |ids| ==> r[k] == ViewOf(slots, ids[k])
  {
    seq(|ids|, k requires 0 <= k < |ids| => ViewOf(slots, ids[k]))
  }

  /** A date on which the query materializes slots: a real weekday with no
      non-working-day record. */
  predicate IsWorkingDay(st: Store, d: Date) {
    ValidDate(d) && !IsWeekend(d) && FindNonWorkingDay(st.nonWorkingDays, d).None?
  }

  /** The labels a query on a working day uses. */
  function LabelsInForce(st: Store): seq<string> {
    EffectiveSlotTimes(SettingsInForce(st).slotTimes)
  }

  /** The capacity a newly created slot receives. */
  function CapacityInForce(st: Store): int {
    OrOne(SettingsInForce(st).maxBookingsPerSlot)
  }

  /** `get_available_slots`: the new store and the reply. */
  function GetAvailableSlots(st: Store, d: Date): (r: (Store, Reply))
    ensures !ValidDate(d) ==> r == (st, InvalidDate)
    ensures ValidDate(d) && IsWeekend(d) ==> r == (st, Closed(WeekendReason))
    ensures ValidDate(d) && !IsWeekend(d) && FindNonWorkingDay(st.nonWorkingDays, d).Some? ==>
      r == (st, Closed(ClosedReason(FindNonWorkingDay(st.nonWorkingDays, d).value)))
    ensures IsWorkingDay(st, d) ==>
      && r.1.Open? && r.1.date == d
      && r.0.settings == Some(SettingsInForce(st))
      && r.0.nonWorkingDays == st.nonWorkingDays
      && r.0.nextNonWorkingDayId == st.nextNonWorkingDayId
      && r.0.bookings == st.bookings
      && r.0.services == st.services
      && |st.slots| <= |r.0.slots| && r.0.slots[..|st.slots|] == st.slots
      && |r.1.slots| == |LabelsInForce(st)|
      && (forall k :: 0 <= k < |r.1.slots| ==>
            && IsSlotId(r.0, r.1.slots[k].id)
            && SlotOf(r.0, r.1.slots[k].id).date == d
            && SlotOf(r.0, r.1.slots[k].id).time == LabelsInForce(st)[k]
            && r.1.slots[k] == ViewOf(r.0.slots, r.1.slots[k].id - 1))
      && (forall i :: |st.slots| <= i < |r.0.slots| ==>
            && r.0.slots[i] == Slot(d, r.0.slots[i].time, CapacityInForce(st), 0, true)
            && r.0.slots[i].time in LabelsInForce(st)
            && FindSlot(st.slots, d, r.0.slots[i].time).None?)
      && (UniqueSlotKeys(st.slots) ==> UniqueSlotKeys(r.0.slots))
  {
    if !ValidDate(d) then (st, InvalidDate)
    else if IsWeekend(d) then (st, Closed(WeekendReason))
    else match FindNonWorkingDay(st.nonWorkingDays, d)
      case Some(day) => (st, Closed(ClosedReason(day)))
      case None =>
        var settings := SettingsInForce(st);
        var m := Materialize(st.slots, d, EffectiveSlotTimes(settings.slotTimes), OrOne(settings.maxBookingsPerSlot));
        MaterializeSpec(st.slots, d, EffectiveSlotTimes(settings.slotTimes), OrOne(settings.maxBookingsPerSlot));
        var views := ViewsOf(m.0, m.1);
        assert forall k :: 0 <= k < |views| ==> views[k].id - 1 == m.1[k] && views[k] == ViewOf(m.0, views[k].id - 1);
        (st.(settings := Some(settings), slots := m.0), Open(d, views))
  }

  // ---------------------------------------------------------------------
  // Properties of materialization

  /** With unique keys, the slot for a key is found at its own index. */
  lemma FindSlotOfUnique(slots: seq<Slot>, i: nat)
    requires UniqueSlotKeys(slots)
    requires i < |slots|
    ensures FindSlot(slots, slots[i].date, slots[i].time) == Some(i)
  {
  }

  /** When every label already has its slot, materialization creates
      nothing and reuses the slot found for each label. */
  lemma {:induction false} MaterializeCreatesNothing(slots: seq<Slot>, d: Date, labels: seq<string>, capacity: int)
    requires forall k :: 0 <= k < |labels| ==> FindSlot(slots, d, labels[k]).Some?
    ensures Materialize(slots, d, labels, capacity).0 == slots
    ensures forall k :: 0 <= k < |labels| ==>
      Materialize(slots, d, labels, capacity).1[k] == FindSlot(slots, d, labels[k]).value
    decreases |labels|
  {
    if |labels| > 0 {
      assert forall k :: 1 <= k < |labels| ==> labels[k] == labels[1..][k - 1];
      MaterializeCreatesNothing(slots, d, labels[1..], capacity);
    }
  }

  /** Materializing the same labels twice gives the same table and the same
      slots as doing it once. */
  lemma MaterializeIdempotent(slots: seq<Slot>, d: Date, labels: seq<string>, capacity: int)
    requires UniqueSlotKeys(slots)
    ensures var r := Materialize(slots, d, labels, capacity);
      Materialize(r.0, d, labels, capacity) == r
  {
    var r := Materialize(slots, d, labels, capacity);
    MaterializeSpec(slots, d, labels, capacity);
    forall k | 0 <= k < |labels|
      ensures FindSlot(r.0, d, labels[k]) == Some(r.1[k])
    {
      FindSlotOfUnique(r.0, r.1[k]);
    }
    MaterializeCreatesNothing(r.0, d, labels, capacity);
    var again := Materialize(r.0, d, labels, capacity);
    assert again.0 == r.0;
    assert again.1 == r.1 by {
      assert |again.1| == |r.1|;
      assert forall k :: 0 <= k < |labels| ==> again.1[k] == r.1[k];
    }
  }

  /** A repeated query for the same date changes nothing and gives the same
      reply. */
  lemma GetAvailableSlotsIdempotent(st: Store, d: Date)
    requires UniqueSlotKeys(st.slots)
    ensures var r := GetAvailableSlots(st, d);
      GetAvailableSlots(r.0, d) == r
  {
    if IsWorkingDay(st, d) {
      var settings := SettingsInForce(st);
      MaterializeIdempotent(st.slots, d, EffectiveSlotTimes(settings.slotTimes), OrOne(settings.maxBookingsPerSlot));
    }
  }

  /** After a query on a working day there is exactly one slot for each
      configured label on that date, and it is the slot the reply reports. */
  lemma OneSlotPerLabel(st: Store, d: Date)
    requires UniqueSlotKeys(st.slots)
    requires IsWorkingDay(st, d)
    ensures var r := GetAvailableSlots(st, d);
      forall k, i :: 0 <= k < |LabelsInForce(st)| && 0 <= i < |r.0.slots| ==>
        (r.0.slots[i].date == d && r.0.slots[i].time == LabelsInForce(st)[k] <==> i + 1 == r.1.slots[k].id)
  {
    var settings := SettingsInForce(st);
    var labels := EffectiveSlotTimes(settings.slotTimes);
    var m := Materialize(st.slots, d, labels, OrOne(settings.maxBookingsPerSlot));
    var r := GetAvailableSlots(st, d);
    assert r.0.slots == m.0 && r.1.slots == ViewsOf(m.0, m.1);
    assert UniqueSlotKeys(m.0);
    forall k, i | 0 <= k < |labels| && 0 <= i < |m.0|
      ensures m.0[i].date == d && m.0[i].time == labels[k] <==> i + 1 == r.1.slots[k].id
    {
      assert r.1.slots[k].id == m.1[k] + 1;
    }
  }

  /** Weekends and non-working days create no slot and no settings row;
      only a working day can change the store. */
  lemma ClosedDatesChangeNothing(st: Store, d: Date)
    requires !IsWorkingDay(st, d)
    ensures GetAvailableSlots(st, d).0 == st
    ensures GetAvailableSlots(st, d).1.Closed? || GetAvailableSlots(st, d).1.InvalidDate?
  {
  }

  /** The query keeps every invariant. */
  lemma GetAvailableSlotsPreservesValid(st: Store, d: Date)
    requires Valid(st)
    ensures Valid(GetAvailableSlots(st, d).0)
  {
    var r := GetAvailableSlots(st, d);
    if IsWorkingDay(st, d) {
      assert CapacityInForce(st) >= 1;
      forall i | 0 <= i < |r.0.slots|
        ensures WithinCapacity(r.0.slots[i])
      {
        if i < |st.slots| {
          assert r.0.slots[i] == st.slots[i];
        }
      }
      assert ReferencesOk(r.0) by {
        forall k | 0 <= k < |r.0.bookings|
          ensures IsSlotId(r.0, r.0.bookings[k].slotId)
        {
          assert IsSlotId(st, st.bookings[k].slotId);
        }
      }
    }
  }

  /** New slots start with no confirmed booking, so the query keeps every
      occupancy counter in sync. */
  lemma GetAvailableSlotsPreservesSync(st: Store, d: Date)
    requires Valid(st) && OccupancySynced(st)
    ensures OccupancySynced(GetAvailableSlots(st, d).0)
  {
    if IsWorkingDay(st, d) {
      WorkingDayQueryPreservesSync(st, d);
    } else {
      ClosedDatesChangeNothing(st, d);
    }
  }

  lemma WorkingDayQueryPreservesSync(st: Store, d: Date)
    requires ReferencesOk(st) && OccupancySynced(st)
    requires IsWorkingDay(st, d)
    ensures OccupancySynced(GetAvailableSlots(st, d).0)
  {
    var after := GetAvailableSlots(st, d).0;
    assert forall k :: 0 <= k < |st.bookings| ==> IsSlotId(st, st.bookings[k].slotId);
    assert forall i :: |st.slots| <= i < |after.slots| ==> after.slots[i].currentBookings == 0;
    SyncAfterGrowth(st.bookings, st.slots, after.slots);
  }

  /** Appending slots with no bookings keeps counts in sync, as long as no
      booking refers beyond the old table. */
  lemma SyncAfterGrowth(bookings: seq<SlotBooking>, slots: seq<Slot>, after: seq<Slot>)
    requires forall i :: 0 <= i < |slots| ==> slots[i].currentBookings == ConfirmedCount(bookings, i + 1)
    requires forall k :: 0 <= k < |bookings| ==> 1 <= bookings[k].slotId <= |slots|
    requires |slots| <= |after| && after[..|slots|] == slots
    requires forall i :: |slots| <= i < |after| ==> after[i].currentBookings == 0
    ensures forall i :: 0 <= i < |after| ==> after[i].currentBookings == ConfirmedCount(bookings, i + 1)
  {
    forall i | 0 <= i < |after|
      ensures after[i].currentBookings == ConfirmedCount(bookings, i + 1)
    {
      if i < |slots| {
        assert after[i] == after[..|slots|][i];
      } else {
        ConfirmedCountNone(bookings, i + 1);
      }
    }
  }
}

=== FILE: booking.dfy ===
/** Booking one slot (`book_slot`). The handler checks, in order, that the
    slot exists and that it is not fully booked; it does not look at the
    slot's `isAvailable` flag, the weekday or the booking horizon. It then
    commits the booking and the occupancy increment, and only afterwards
    parses the slot's time label to schedule the service ticket; a label that
    does not parse leaves a committed booking without a ticket. */
module Booking {
  import opened Wrappers
  import opened Dates
  import opened Clock
  import opened Models

  /** The handler's outcomes: the two refusals ("Invalid slot" and "Slot is
      fully booked"), the server error raised by a label that does not parse
      after the booking is committed, and success. */
  datatype Outcome =
    | InvalidSlot
    | SlotFullyBooked
    | BookedWithoutService(bookingId: int)
    | Booked(bookingId: int, serviceId: int)

  /** The slot after one more booking. */
  function Occupied(s: Slot): (r: Slot)
    ensures r.currentBookings == s.currentBookings + 1
    ensures r.date == s.date && r.time == s.time
    ensures r.maxBookings == s.maxBookings && r.isAvailable == s.isAvailable
  {
    s.(currentBookings := s.currentBookings + 1)
  }

  /** `book_slot` for the account whose `real_id` is `userId`. */
  function BookSlot(st: Store, slotId: int, userId: int, vehicleId: int, serviceType: string, notes: string): (r: (Store, Outcome))
    ensures r.1.InvalidSlot? <==> !IsSlotId(st, slotId)
    ensures r.1.SlotFullyBooked? <==> IsSlotId(st, slotId) && IsFullyBooked(SlotOf(st, slotId))
    ensures r.1.InvalidSlot? || r.1.SlotFullyBooked? ==> r.0 == st
    ensures r.1.BookedWithoutService? ==>
      && ParseClock(SlotOf(st, slotId).time).None?
      && r.1.bookingId == |st.bookings| + 1
      && r.0 == st.(slots := st.slots[slotId - 1 := Occupied(SlotOf(st, slotId))],
                    bookings := st.bookings + [SlotBooking(slotId, None, userId, vehicleId, serviceType, Confirmed, notes)])
    ensures r.1.Booked? ==>
      && ParseClock(SlotOf(st, slotId).time).Some?
      && r.1.bookingId == |st.bookings| + 1
      && r.1.serviceId == |st.services| + 1
      && r.0 == st.(slots := st.slots[slotId - 1 := Occupied(SlotOf(st, slotId))],
                    bookings := st.bookings + [SlotBooking(slotId, Some(r.1.serviceId), userId, vehicleId, serviceType, Confirmed, notes)],
                    services := st.services + [Service(serviceType,
                      Timestamp(SlotOf(st, slotId).date, ParseClock(SlotOf(st, slotId).time).value),
                      Scheduled, vehicleId, userId, notes)])
  {
    if !IsSlotId(st, slotId) then (st, InvalidSlot)
    else
      var slot := SlotOf(st, slotId);
      if IsFullyBooked(slot) then (st, SlotFullyBooked)
      else
        var bookingId := |st.bookings| + 1;
        var booking := SlotBooking(slotId, None, userId, vehicleId, serviceType, Confirmed, notes);
        var committed := st.(slots := st.slots[slotId - 1 := Occupied(slot)], bookings := st.bookings + [booking]);
        match ParseClock(slot.time)
        case None => (committed, BookedWithoutService(bookingId))
        case Some(t) =>
          var service := Service(serviceType, Timestamp(slot.date, t), Scheduled, vehicleId, userId, notes);
          var serviceId := |st.services| + 1;
          var linked := booking.(serviceId := Some(serviceId));
          (committed.(bookings := st.bookings + [linked], services := st.services + [service]), Booked(bookingId, serviceId))
  }

  /** Appending a booking adds one to its slot's count exactly when it is
      confirmed. */
  lemma ConfirmedCountAppend(bookings: seq<SlotBooking>, b: SlotBooking, slotId: int)
    ensures ConfirmedCount(bookings + [b], slotId) ==
      ConfirmedCount(bookings, slotId) + (if b.slotId == slotId && b.status == Confirmed then 1 else 0)
  {
    assert (bookings + [b])[..|bookings|] == bookings;
  }

  /** A successful booking raises the occupancy of its own slot by one and
      leaves every other slot as it was. */
  lemma BookingRaisesOneSlot(st: Store, slotId: int, userId: int, vehicleId: int, serviceType: string, notes: string)
    requires IsSlotId(st, slotId) && !IsFullyBooked(SlotOf(st, slotId))
    ensures var r := BookSlot(st, slotId, userId, vehicleId, serviceType, notes);
      && (r.1.Booked? || r.1.BookedWithoutService?)
      && |r.0.slots| == |st.slots|
      && SlotOf(r.0, slotId).currentBookings == SlotOf(st, slotId).currentBookings + 1
      && (forall i :: 0 <= i < |st.slots| && i != slotId - 1 ==> r.0.slots[i] == st.slots[i])
      && |r.0.bookings| == |st.bookings| + 1
      && r.0.bookings[..|st.bookings|] == st.bookings
  {
  }

  /** Occupying a slot that is not full keeps the slot table's invariants. */
  lemma OccupiedTableOk(slots: seq<Slot>, i: nat)
    requires i < |slots| && !IsFullyBooked(slots[i])
    requires UniqueSlotKeys(slots) && forall j :: 0 <= j < |slots| ==> WithinCapacity(slots[j])
    ensures var after := slots[i := Occupied(slots[i])];
      UniqueSlotKeys(after) && forall j :: 0 <= j < |after| ==> WithinCapacity(after[j])
  {
    var after := slots[i := Occupied(slots[i])];
    assert forall j :: 0 <= j < |slots| ==> after[j].date == slots[j].date && after[j].time == slots[j].time;
  }

  /** A store that gains one occupied slot, one booking on it and possibly
      the service ticket that booking names keeps every invariant. */
  lemma AfterBookingValid(st: Store, slotId: int, b: SlotBooking, added: seq<Service>)
    requires Valid(st)
    requires IsSlotId(st, slotId) && !IsFullyBooked(SlotOf(st, slotId)) && b.slotId == slotId
    requires b.serviceId.Some? ==> 1 <= b.serviceId.value <= |st.services| + |added|
    ensures Valid(st.(slots := st.slots[slotId - 1 := Occupied(SlotOf(st, slotId))],
                      bookings := st.bookings + [b],
                      services := st.services + added))
  {
    var after := st.(slots := st.slots[slotId - 1 := Occupied(SlotOf(st, slotId))],
                     bookings := st.bookings + [b],
                     services := st.services + added);
    OccupiedTableOk(st.slots, slotId - 1);
    forall k | 0 <= k < |after.bookings|
      ensures IsSlotId(after, after.bookings[k].slotId)
      ensures after.bookings[k].serviceId.Some? ==> 1 <= after.bookings[k].serviceId.value <= |after.services|
    {
      if k < |st.bookings| {
        assert after.bookings[k] == st.bookings[k];
      }
    }
  }

  /** Booking keeps every invariant; in particular a slot's occupancy never
      exceeds its capacity. */
  lemma BookSlotPreservesValid(st: Store, slotId: int, userId: int, vehicleId: int, serviceType: string, notes: string)
    requires Valid(st)
    ensures Valid(BookSlot(st, slotId, userId, vehicleId, serviceType, notes).0)
  {
    var r := BookSlot(st, slotId, userId, vehicleId, serviceType, notes);
    if r.1.BookedWithoutService? {
      AfterBookingValid(st, slotId, SlotBooking(slotId, None, userId, vehicleId, serviceType, Confirmed, notes), []);
      assert st.services + [] == st.services;
    } else if r.1.Booked? {
      var slot := SlotOf(st, slotId);
      var service := Service(serviceType, Timestamp(slot.date, ParseClock(slot.time).value), Scheduled, vehicleId, userId, notes);
      AfterBookingValid(st, slotId, SlotBooking(slotId, Some(r.1.serviceId), userId, vehicleId, serviceType, Confirmed, notes), [service]);
    }
  }

  /** Booking keeps each slot's occupancy equal to its number of confirmed
      bookings. */
  lemma BookSlotPreservesSync(st: Store, slotId: int, userId: int, vehicleId: int, serviceType: string, notes: string)
    requires OccupancySynced(st)
    ensures OccupancySynced(BookSlot(st, slotId, userId, vehicleId, serviceType, notes).0)
  {
    var r := BookSlot(st, slotId, userId, vehicleId, serviceType, notes);
    if r.1.BookedWithoutService? {
      SyncAfterBooking(st, slotId, SlotBooking(slotId, None, userId, vehicleId, serviceType, Confirmed, notes), []);
      assert st.services + [] == st.services;
    } else if r.1.Booked? {
      var slot := SlotOf(st, slotId);
      var service := Service(serviceType, Timestamp(slot.date, ParseClock(slot.time).value), Scheduled, vehicleId, userId, notes);
      SyncAfterBooking(st, slotId, SlotBooking(slotId, Some(r.1.serviceId), userId, vehicleId, serviceType, Confirmed, notes), [service]);
    }
  }

  /** A store that gains one occupied slot and one confirmed booking on it
      stays in sync, whatever tickets are added. */
  lemma SyncAfterBooking(st: Store, slotId: int, b: SlotBooking, added: seq<Service>)
    requires OccupancySynced(st)
    requires IsSlotId(st, slotId) && b.slotId == slotId && b.status == Confirmed
    ensures OccupancySynced(st.(slots := st.slots[slotId - 1 := Occupied(SlotOf(st, slotId))],
                                bookings := st.bookings + [b],
                                services := st.services + added))
  {
    SyncAfterOccupy(st.slots, st.bookings, slotId - 1, b);
  }

  /** Occupying slot `i` while appending a confirmed booking on it keeps
      every count in sync. */
  lemma SyncAfterOccupy(slots: seq<Slot>, bookings: seq<SlotBooking>, i: nat, b: SlotBooking)
    requires forall j :: 0 <= j < |slots| ==> slots[j].currentBookings == ConfirmedCount(bookings, j + 1)
    requires i < |slots| && b.slotId == i + 1 && b.status == Confirmed
    ensures var after := slots[i := Occupied(slots[i])];
      forall j :: 0 <= j < |after| ==> after[j].currentBookings == ConfirmedCount(bookings + [b], j + 1)
  {
    var after := slots[i := Occupied(slots[i])];
    forall j | 0 <= j < |after|
      ensures after[j].currentBookings == ConfirmedCount(bookings + [b], j + 1)
    {
      ConfirmedCountAppend(bookings, b, j + 1);
    }
  }

  /** The handler never reads the slot's `isAvailable` flag: a slot closed by
      a non-working day, but with capacity left, is booked all the same. */
  lemma BookingIgnoresAvailabilityFlag(st: Store, slotId: int, open: bool, userId: int, vehicleId: int, serviceType: string, notes: string)
    requires IsSlotId(st, slotId)
    ensures var flipped := st.(slots := st.slots[slotId - 1 := SlotOf(st, slotId).(isAvailable := open)]);
      BookSlot(flipped, slotId, userId, vehicleId, serviceType, notes).1 == BookSlot(st, slotId, userId, vehicleId, serviceType, notes).1
  {
  }

  /** The hours of the default labels, on the 24-hour clock. */
  const DefaultHours: seq<int> := [9, 11, 13, 15, 17]

  /** The default labels are the printed forms of 9, 11, 13, 15 and 17
      o'clock. */
  lemma DefaultLabelPrinted(k: int)
    requires 0 <= k < |DefaultSlotTimes|
    ensures DefaultSlotTimes[k] == FormatClock(ClockTime(DefaultHours[k], 0))
  {
    assert TwoDigits(0) == "00";
    if k == 0 {
      assert TwoDigits(9) == "09";
    } else if k == 1 {
      assert TwoDigits(11) == "11";
    } else if k == 2 {
      assert TwoDigits(1) == "01";
    } else if k == 3 {
      assert TwoDigits(3) == "03";
    } else {
      assert TwoDigits(5) == "05";
    }
  }

  /** So every default label parses, to its hour on the 24-hour clock. */
  lemma DefaultLabelParses(k: int)
    requires 0 <= k < |DefaultSlotTimes|
    ensures ParseClock(DefaultSlotTimes[k]) == Some(ClockTime(DefaultHours[k], 0))
  {
    DefaultLabelPrinted(k);
    ParseFormatClock(ClockTime(DefaultHours[k], 0));
  }

  /** A slot created under a printed label schedules its service ticket at
      exactly the time that was printed. */
  lemma BookingSchedulesPrintedTime(st: Store, slotId: int, t: ClockTime, userId: int, vehicleId: int, serviceType: string, notes: string)
    requires IsSlotId(st, slotId) && !IsFullyBooked(SlotOf(st, slotId))
    requires ValidClockTime(t) && SlotOf(st, slotId).time == FormatClock(t)
    ensures var r := BookSlot(st, slotId, userId, vehicleId, serviceType, notes);
      && r.1.Booked?
      && r.0.services[r.1.serviceId - 1].scheduledDate == Timestamp(SlotOf(st, slotId).date, t)
      && r.0.services[r.1.serviceId - 1].status == Scheduled
      && r.0.bookings[r.1.bookingId - 1].serviceId == Some(r.1.serviceId)
  {
    ParseFormatClock(t);
  }

  /** A slot whose label is written on the 24-hour clock, such as "09:00",
      takes the booking and its occupancy increment, but then fails to
      parse: the booking stays confirmed with no service ticket. */
  lemma UnparsableLabelLeavesBookingWithoutService(st: Store, slotId: int, userId: int, vehicleId: int, serviceType: string, notes: string)
    requires IsSlotId(st, slotId) && !IsFullyBooked(SlotOf(st, slotId))
    requires SlotOf(st, slotId).time == "09:00"
    ensures var r := BookSlot(st, slotId, userId, vehicleId, serviceType, notes);
      && r.1 == BookedWithoutService(|st.bookings| + 1)
      && r.0.services == st.services
      && SlotOf(r.0, slotId).currentBookings == SlotOf(st, slotId).currentBookings + 1
      && r.0.bookings[|st.bookings|].status == Confirmed
      && r.0.bookings[|st.bookings|].serviceId == None
  {
    RefusesMissingMeridiem();
  }

  /** A slot whose label an administrator wrote with a space-padded hour,
      such as " 9:00 AM", is booked and counted, and then fails the parse:
      the booking stays confirmed with no service ticket. */
  lemma SpacePaddedLabelLeavesBookingWithoutService(st: Store, slotId: int, userId: int, vehicleId: int, serviceType: string, notes: string)
    requires IsSlotId(st, slotId) && !IsFullyBooked(SlotOf(st, slotId))
    requires SlotOf(st, slotId).time == " 9:00 AM"
    ensures var r := BookSlot(st, slotId, userId, vehicleId, serviceType, notes);
      && r.1 == BookedWithoutService(|st.bookings| + 1)
      && r.0.services == st.services
      && r.0.bookings[|st.bookings|].status == Confirmed
      && r.0.bookings[|st.bookings|].serviceId == None
  {
    RefusesSpacePaddedHour();
  }
}

=== FILE: clock.dfy ===
/** The 12-hour clock labels of booking slots ("09:00 AM") and the parser that
    `datetime.strptime(label, '%I:%M %p')` applies to them when a booking's
    service ticket is scheduled. The parser follows the pattern CPython's
    `_strptime` builds from that format in Python 3.12: `%I` is
    `1[0-2]|0[1-9]|[1-9]`, `%M` is `[0-5]\d|\d`, the space becomes one
    or more whitespace characters (`\s+`), `%p` is `am|pm` compared without
    regard to letter case, and the whole label must match. Digits are ASCII
    digits and whitespace is the ASCII part of `\s`. */
module Clock {
  import opened Wrappers
  import opened Text

  /** A time of day on the 24-hour clock. */
  datatype ClockTime = ClockTime(hour: int, minute: int)

  predicate ValidClockTime(t: ClockTime) {
    0 <= t.hour < 24 && 0 <= t.minute < 60
  }

  /** The hour field `%I`: "1".."9", "01".."09", "10", "11" or "12". */
  function ParseHour12(h: string): (r: Option<int>)
    ensures r.Some? ==> 1 <= r.value <= 12
    ensures r.Some? ==> 1 <= |h| <= 2 && forall k :: 0 <= k < |h| ==> IsDigit(h[k])
    ensures |h| == 1 ==> (r.Some? <==> '1' <= h[0] <= '9') && (r.Some? ==> r.value == DigitValue(h[0]))
    ensures |h| == 2 && IsDigit(h[0]) && IsDigit(h[1]) ==>
      (r.Some? <==> 1 <= 10 * DigitValue(h[0]) + DigitValue(h[1]) <= 12)
    ensures r.Some? && |h| == 2 && IsDigit(h[0]) ==> r.value == 10 * DigitValue(h[0]) + DigitValue(h[1])
  {
    if |h| == 1 && '1' <= h[0] <= '9' then Some(DigitValue(h[0]))
    else if |h| == 2 && h[0] == '0' && '1' <= h[1] <= '9' then Some(DigitValue(h[1]))
    else if |h| == 2 && h[0] == '1' && '0' <= h[1] <= '2' then Some(10 + DigitValue(h[1]))
    else None
  }

  /** The minute field `%M`: one digit, or two digits of which the first is 0..5. */
  function ParseMinute(m: string): (r: Option<int>)
    ensures r.Some? ==> 0 <= r.value < 60
    ensures r.Some? <==> (|m| == 1 && IsDigit(m[0])) || (|m| == 2 && '0' <= m[0] <= '5' && IsDigit(m[1]))
    ensures r.Some? && |m| == 1 ==> r.value == DigitValue(m[0])
    ensures r.Some? && |m| == 2 ==> r.value == 10 * DigitValue(m[0]) + DigitValue(m[1])
  {
    if |m| == 1 && IsDigit(m[0]) then Some(DigitValue(m[0]))
    else if |m| == 2 && '0' <= m[0] <= '5' && IsDigit(m[1]) then Some(10 * DigitValue(m[0]) + DigitValue(m[1]))
    else None
  }

  /** The meridiem field `%p`: "am" or "pm" in any letter case; true means pm. */
  function ParseMeridiem(p: string): (r: Option<bool>)
    ensures r.Some? <==> |p| == 2 && (p[0] == 'a' || p[0] == 'A' || p[0] == 'p' || p[0] == 'P') && (p[1] == 'm' || p[1] == 'M')
    ensures r == Some(true) <==> |p| == 2 && (p[0] == 'p' || p[0] == 'P') && (p[1] == 'm' || p[1] == 'M')
  {
    if |p| == 2 && (p[1] == 'm' || p[1] == 'M') then
      if p[0] == 'a' || p[0] == 'A' then Some(false)
      else if p[0] == 'p' || p[0] == 'P' then Some(true)
      else None
    else None
  }

  /** The 12-hour to 24-hour conversion of `_strptime`: 12 AM is hour 0,
      12 PM is hour 12, and every other PM hour gains 12. */
  function To24Hour(h12: int, pm: bool): (r: int)
    requires 1 <= h12 <= 12
    ensures 0 <= r < 24
    ensures pm <==> r >= 12
    ensures r % 12 == h12 % 12
  {
    if pm then (if h12 == 12 then 12 else h12 + 12)
    else (if h12 == 12 then 0 else h12)
  }

  /** Index of the first occurrence of `c` in `s`. */
  function IndexOf(s: string, c: char): (r: Option<nat>)
    ensures r.Some? ==> r.value < |s| && s[r.value] == c && c !in s[..r.value]
    ensures r.None? ==> c !in s
  {
    if |s| == 0 then None
    else if s[0] == c then Some(0)
    else match IndexOf(s[1..], c)
      case None => None
      case Some(i) => assert s[..i + 1] == [s[0]] + s[1..][..i]; Some(i + 1)
  }

  /** Index of the first whitespace character in `s`. */
  function FirstSpace(s: string): (r: Option<nat>)
    ensures r.Some? ==> r.value < |s| && IsPatternSpace(s[r.value])
    ensures r.Some? ==> forall k :: 0 <= k < r.value ==> !IsPatternSpace(s[k])
    ensures r.None? ==> forall k :: 0 <= k < |s| ==> !IsPatternSpace(s[k])
  {
    if |s| == 0 then None
    else if IsPatternSpace(s[0]) then Some(0)
    else match FirstSpace(s[1..])
      case None => None
      case Some(i) => Some(i + 1)
  }

  /** `s` without its leading whitespace. */
  function SkipSpaces(s: string): (r: string)
    ensures |r| <= |s| && r == s[|s| - |r|..]
    ensures |r| > 0 ==> !IsPatternSpace(r[0])
    ensures forall k :: 0 <= k < |s| - |r| ==> IsPatternSpace(s[k])
  {
    if |s| > 0 && IsPatternSpace(s[0]) then SkipSpaces(s[1..]) else s
  }

  /** Cuts a label into its hour, minute and meridiem texts: the hour is
      everything before the first colon, the minute runs up to the first
      whitespace after it, and the meridiem is what follows that run of
      whitespace. */
  function SplitLabel(s: string): (r: Option<(string, string, string)>)
    ensures r.Some? ==> |r.value.0| + 1 + |r.value.1| < |s| && IsPatternSpace(s[|r.value.0| + 1 + |r.value.1|])
    ensures r.Some? ==> s == r.value.0 + ":" + r.value.1 + s[|r.value.0| + 1 + |r.value.1|..]
    ensures r.Some? ==> ':' !in r.value.0
  {
    match IndexOf(s, ':')
    case None => None
    case Some(i) =>
      var rest := s[i + 1..];
      match FirstSpace(rest)
      case None => None
      case Some(j) =>
        assert s == s[..i] + ":" + rest[..j] + s[i + 1 + j..];
        Some((s[..i], rest[..j], SkipSpaces(rest[j..])))
  }

  /** `datetime.strptime(s, '%I:%M %p')`, reduced to its time of day; None
      where strptime raises ValueError. */
  function ParseClock(s: string): (r: Option<ClockTime>)
    ensures r.Some? ==> ValidClockTime(r.value)
  {
    match SplitLabel(s)
    case None => None
    case Some((h, m, p)) =>
      var hour := ParseHour12(h);
      var minute := ParseMinute(m);
      var meridiem := ParseMeridiem(p);
      if hour.Some? && minute.Some? && meridiem.Some? then
        Some(ClockTime(To24Hour(hour.value, meridiem.value), minute.value))
      else None
  }

  function TwoDigits(n: int): (r: string)
    requires 0 <= n < 100
    ensures |r| == 2 && IsDigit(r[0]) && IsDigit(r[1])
    ensures 10 * DigitValue(r[0]) + DigitValue(r[1]) == n
  {
    [DigitChar(n / 10), DigitChar(n % 10)]
  }

  /** The label `strftime('%I:%M %p')` prints for a time of day. */
  function FormatClock(t: ClockTime): (r: string)
    requires ValidClockTime(t)
    ensures |r| == 8 && r[2] == ':' && r[5] == ' '
  {
    var h12 := if t.hour % 12 == 0 then 12 else t.hour % 12;
    TwoDigits(h12) + ":" + TwoDigits(t.minute) + " " + MeridiemLabel(t.hour >= 12)
  }

  function MeridiemLabel(pm: bool): string {
    if pm then "PM" else "AM"
  }

  lemma IndexOfAfterPrefix(h: string, x: string)
    requires ':' !in h
    ensures IndexOf(h + ":" + x, ':') == Some(|h|)
  {
    if |h| > 0 {
      assert (h + ":" + x)[1..] == h[1..] + ":" + x;
      IndexOfAfterPrefix(h[1..], x);
    }
  }

  lemma FirstSpaceAfterWord(m: string, c: char, x: string)
    requires forall k :: 0 <= k < |m| ==> !IsPatternSpace(m[k])
    requires IsPatternSpace(c)
    ensures FirstSpace(m + [c] + x) == Some(|m|)
  {
    if |m| > 0 {
      assert (m + [c] + x)[1..] == m[1..] + [c] + x;
      FirstSpaceAfterWord(m[1..], c, x);
    }
  }

  /** A label of the shape hour ":" minute whitespace meridiem is cut at
      the first colon and the first whitespace, whichever whitespace
      character separates the minute from the meridiem. */
  lemma SplitLabelFields(h: string, m: string, c: char, p: string)
    requires ':' !in h
    requires forall k :: 0 <= k < |m| ==> !IsPatternSpace(m[k])
    requires IsPatternSpace(c)
    ensures SplitLabel(h + ":" + m + [c] + p) == Some((h, m, SkipSpaces(p)))
  {
    var s := h + ":" + m + [c] + p;
    IndexOfAfterPrefix(h, m + [c] + p);
    assert s == h + ":" + (m + [c] + p);
    var rest := s[|h| + 1..];
    assert rest == m + [c] + p;
    FirstSpaceAfterWord(m, c, p);
    assert s[..|h|] == h;
    assert rest[..|m|] == m;
    assert rest[|m|..] == [c] + p;
  }

  lemma SkipLeadingSpace(p: string)
    requires |p| > 0 && !IsPatternSpace(p[0])
    ensures SkipSpaces(" " + p) == p
  {
    assert (" " + p)[1..] == p;
  }

  /** How such a label is parsed: each field by its own rule. */
  lemma ParseClockFields(h: string, m: string, p: string)
    requires ':' !in h
    requires forall k :: 0 <= k < |m| ==> !IsPatternSpace(m[k])
    ensures ParseClock(h + ":" + m + " " + p) ==
      if ParseHour12(h).Some? && ParseMinute(m).Some? && ParseMeridiem(SkipSpaces(p)).Some? then
        Some(ClockTime(To24Hour(ParseHour12(h).value, ParseMeridiem(SkipSpaces(p)).value), ParseMinute(m).value))
      else None
  {
    assert " " == [' '];
    SplitLabelFields(h, m, ' ', p);
  }

  lemma ParseTwoDigitFields(h12: int, minute: int)
    requires 1 <= h12 <= 12 && 0 <= minute < 60
    ensures ParseHour12(TwoDigits(h12)) == Some(h12)
    ensures ParseMinute(TwoDigits(minute)) == Some(minute)
    ensures ':' !in TwoDigits(h12)
    ensures forall k :: 0 <= k < 2 ==> !IsPatternSpace(TwoDigits(minute)[k])
  {
  }

  lemma ParseMeridiemLabel(pm: bool)
    ensures SkipSpaces(MeridiemLabel(pm)) == MeridiemLabel(pm)
    ensures ParseMeridiem(MeridiemLabel(pm)) == Some(pm)
  {
    var s := MeridiemLabel(pm);
    assert |s| == 2 && s[1] == 'M';
    if pm {
      assert s[0] == 'P';
    } else {
      assert s[0] == 'A';
    }
  }

  lemma To24HourOfPrinted(t: ClockTime)
    requires ValidClockTime(t)
    ensures To24Hour(if t.hour % 12 == 0 then 12 else t.hour % 12, t.hour >= 12) == t.hour
  {
  }

  /** Every printed label parses back to the time it was printed from. */
  lemma ParseFormatClock(t: ClockTime)
    requires ValidClockTime(t)
    ensures ParseClock(FormatClock(t)) == Some(t)
  {
    var h12 := if t.hour % 12 == 0 then 12 else t.hour % 12;
    var p := MeridiemLabel(t.hour >= 12);
    var hs, ms := TwoDigits(h12), TwoDigits(t.minute);
    assert FormatClock(t) == hs + ":" + ms + " " + p;
    ParseTwoDigitFields(h12, t.minute);
    ParseMeridiemLabel(t.hour >= 12);
    assert ParseHour12(hs) == Some(h12) && ParseMinute(ms) == Some(t.minute) && ParseMeridiem(SkipSpaces(p)) == Some(t.hour >= 12);
    ParseClockFields(hs, ms, p);
    To24HourOfPrinted(t);
  }

  /** 12-hour parsing is strict about the meridiem: a bare 24-hour label such
      as "09:00" is refused, and so is an hour of 13 or a missing space. */
  lemma RefusesMissingMeridiem()
    ensures ParseClock("09:00") == None
  {
    assert IndexOf("09:00", ':') == Some(2);
    assert FirstSpace("00") == None;
  }

  lemma RefusesHourAboveTwelve()
    ensures ParseClock("13:00 PM") == None
  {
    ParseClockFields("13", "00", "PM");
    assert "13" + ":" + "00" + " " + "PM" == "13:00 PM";
  }

  lemma RefusesMissingSeparator()
    ensures ParseClock("9:00AM") == None
  {
    assert IndexOf("9:00AM", ':') == Some(1);
    assert FirstSpace("00AM") == None;
  }

  /** strptime's leniency: one-digit fields and lower case are accepted. */
  lemma AcceptsShortLowerCase()
    ensures ParseClock("9:5 pm") == Some(ClockTime(21, 5))
  {
    assert ParseHour12("9") == Some(9);
    assert ParseMinute("5") == Some(5);
    assert SkipSpaces("pm") == "pm";
    assert ParseMeridiem("pm") == Some(true);
    assert "9" + ":" + "5" + " " + "pm" == "9:5 pm";
    ParseClockFields("9", "5", "pm");
  }

  /** strptime's leniency: a run of whitespace stands for the one space, and
      twelve past midnight is written 12 AM. */
  lemma AcceptsWhitespaceRun()
    ensures ParseClock("12:30  am") == Some(ClockTime(0, 30))
  {
    assert ParseHour12("12") == Some(12);
    assert ParseMinute("30") == Some(30);
    assert ParseMeridiem("am") == Some(false);
    SkipLeadingSpace("am");
    assert "12" + ":" + "30" + " " + (" " + "am") == "12:30  am";
    ParseClockFields("12", "30", " " + "am");
  }

  /** The hour field has no space-padded form: " 9:00 AM" is refused. */
  lemma RefusesSpacePaddedHour()
    ensures ParseClock(" 9:00 AM") == None
  {
    assert ParseHour12(" 9") == None;
    assert " 9" + ":" + "00" + " " + "AM" == " 9:00 AM";
    ParseClockFields(" 9", "00", "AM");
  }

  /** Any whitespace character the pattern knows may stand for the format's
      space: the label parses exactly as it does with a plain space. */
  lemma SeparatorParsesAsSpace(h: string, m: string, c: char, p: string)
    requires ':' !in h
    requires forall k :: 0 <= k < |m| ==> !IsPatternSpace(m[k])
    requires IsPatternSpace(c)
    ensures ParseClock(h + ":" + m + [c] + p) == ParseClock(h + ":" + m + " " + p)
  {
    SplitLabelFields(h, m, c, p);
    ParseClockFields(h, m, p);
  }

  /** The ASCII separator characters 0x1C to 0x1F are whitespace to the
      pattern, so one of them may stand for the format's space. */
  lemma AcceptsSeparatorAsSpace()
    ensures ParseClock("09" + ":" + "00" + [28 as char] + "AM") == Some(ClockTime(9, 0))
  {
    SeparatorParsesAsSpace("09", "00", 28 as char, "AM");
    ParsesNineAM();
  }

  lemma ParsesNineAM()
    ensures ParseClock("09" + ":" + "00" + " " + "AM") == Some(ClockTime(9, 0))
  {
    assert ParseHour12("09") == Some(9);
    assert ParseMinute("00") == Some(0);
    assert SkipSpaces("AM") == "AM";
    assert ParseMeridiem("AM") == Some(false);
    ParseClockFields("09", "00", "AM");
  }
}

=== FILE: dates.dfy ===
/** Proleptic Gregorian calendar dates and the weekday rule that
    `date.weekday()` applies (Monday = 0 … Sunday = 6). The weekday is
    computed the way CPython's `datetime` module computes it, from the
    ordinal day number, and is checked against an independent day-by-day
    definition of the calendar. */
module Dates {

  datatype Date = Date(year: int, month: int, day: int)

  predicate IsLeap(y: int) {
    y % 4 == 0 && (y % 100 != 0 || y % 400 == 0)
  }

  function YearLength(y: int): int {
    if IsLeap(y) then 366 else 365
  }

  function DaysInMonth(y: int, m: int): (r: int)
    requires 1 <= m <= 12
    ensures 28 <= r <= 31
    ensures r == 29 <==> m == 2 && IsLeap(y)
  {
    if m == 2 then (if IsLeap(y) then 29 else 28)
    else if m == 4 || m == 6 || m == 9 || m == 11 then 30
    else 31
  }

  /** A date that `datetime.date` accepts: years 1 through 9999. */
  predicate ValidDate(d: Date) {
    && 1 <= d.year <= 9999
    && 1 <= d.month <= 12
    && 1 <= d.day <= DaysInMonth(d.year, d.month)
  }

  /** Number of days in the years before `y`, in closed form. */
  function DaysBeforeYear(y: int): int
    requires y >= 1
  {
    var y1 := y - 1;
    y1 * 365 + y1 / 4 - y1 / 100 + y1 / 400
  }

  /** The same count, obtained by adding up the length of each earlier year. */
  function DaysBeforeYearByCounting(y: int): int
    requires y >= 1
    decreases y
  {
    if y == 1 then 0 else DaysBeforeYearByCounting(y - 1) + YearLength(y - 1)
  }

  /** Number of days in the months of year `y` before month `m`. */
  function DaysBeforeMonth(y: int, m: int): int
    requires 1 <= m <= 12
  {
    var table := [0, 31, 59, 90, 120, 151, 181, 212, 243, 273, 304, 334];
    table[m - 1] + (if m > 2 && IsLeap(y) then 1 else 0)
  }

  /** Day number counted from 0001-01-01, which is day 1. */
  function Ordinal(d: Date): int
    requires ValidDate(d)
  {
    DaysBeforeYear(d.year) + DaysBeforeMonth(d.year, d.month) + d.day
  }

  /** Monday is 0 and Sunday is 6; 0001-01-01 was a Monday. */
  function Weekday(d: Date): (r: int)
    requires ValidDate(d)
    ensures 0 <= r < 7
  {
    (Ordinal(d) + 6) % 7
  }

  /** Saturday (5) or Sunday (6): the last two days of the week. */
  function IsWeekend(d: Date): (r: bool)
    requires ValidDate(d)
    ensures r <==> 5 <= Weekday(d)
  {
    Weekday(d) == 5 || Weekday(d) == 6
  }

  /** The calendar day after `d`, defined by the rules of the calendar alone. */
  function NextDay(d: Date): (r: Date)
    requires ValidDate(d)
    ensures d.year < 9999 || d.month < 12 || d.day < 31 ==> ValidDate(r)
  {
    if d.day < DaysInMonth(d.year, d.month) then Date(d.year, d.month, d.day + 1)
    else if d.month < 12 then Date(d.year, d.month + 1, 1)
    else Date(d.year + 1, 1, 1)
  }

  /** Moving from `y - 1` to `y` adds one to `y / k` exactly when `k` divides `y`,
      for the three divisors of the leap-year rule. */
  lemma QuotientStep(y: int)
    requires y >= 1
    ensures y / 4 - (y - 1) / 4 == (if y % 4 == 0 then 1 else 0)
    ensures y / 100 - (y - 1) / 100 == (if y % 100 == 0 then 1 else 0)
    ensures y / 400 - (y - 1) / 400 == (if y % 400 == 0 then 1 else 0)
    ensures y % 100 == 0 ==> y % 4 == 0
    ensures y % 400 == 0 ==> y % 100 == 0
  {
  }

  lemma YearStep(y: int)
    requires y >= 1
    ensures DaysBeforeYear(y + 1) == DaysBeforeYear(y) + YearLength(y)
  {
    QuotientStep(y);
  }

  /** The closed form CPython uses agrees with counting the years one by one. */
  lemma {:induction false} DaysBeforeYearIsCount(y: int)
    requires y >= 1
    ensures DaysBeforeYear(y) == DaysBeforeYearByCounting(y)
    decreases y
  {
    if y > 1 {
      DaysBeforeYearIsCount(y - 1);
      YearStep(y - 1);
    }
  }

  /** Consecutive calendar days have consecutive ordinals. */
  lemma OrdinalOfNextDay(d: Date)
    requires ValidDate(d)
    requires d.year < 9999 || d.month < 12 || d.day < 31
    ensures Ordinal(NextDay(d)) == Ordinal(d) + 1
  {
    if d.day == DaysInMonth(d.year, d.month) && d.month == 12 {
      YearStep(d.year);
    }
  }

  /** The weekday advances by one, modulo seven, from each day to the next. */
  lemma WeekdayOfNextDay(d: Date)
    requires ValidDate(d)
    requires d.year < 9999 || d.month < 12 || d.day < 31
    ensures Weekday(NextDay(d)) == (Weekday(d) + 1) % 7
  {
    OrdinalOfNextDay(d);
    SuccessorModSeven(Ordinal(d) + 6);
  }

  lemma SuccessorModSeven(x: int)
    ensures (x + 1) % 7 == (x % 7 + 1) % 7
  {
  }

  /** An anchor for the weekday rule: 6 January 2024 was a Saturday and
      8 January 2024 a Monday. */
  lemma WeekdayAnchor()
    ensures Weekday(Date(2024, 1, 6)) == 5 && IsWeekend(Date(2024, 1, 6))
    ensures Weekday(Date(2024, 1, 8)) == 0 && !IsWeekend(Date(2024, 1, 8))
  {
  }

  /** The weekend is the two days after a Friday: a Friday is a working
      day, the next two days are the weekend, and the Monday after them is
      a working day again. */
  lemma WeekendFollowsFriday(d: Date)
    requires ValidDate(d) && d.year < 9997 && Weekday(d) == 4
    ensures !IsWeekend(d)
    ensures ValidDate(NextDay(d)) && IsWeekend(NextDay(d))
    ensures ValidDate(NextDay(NextDay(d))) && IsWeekend(NextDay(NextDay(d)))
    ensures ValidDate(NextDay(NextDay(NextDay(d)))) && !IsWeekend(NextDay(NextDay(NextDay(d))))
  {
    var sat := NextDay(d);
    WeekdayStep(d);
    assert Weekday(sat) == 5;
    var sun := NextDay(sat);
    WeekdayStep(sat);
    assert Weekday(sun) == 6;
    WeekdayStep(sun);
    assert Weekday(NextDay(sun)) == 0;
  }

  lemma WeekdayStep(d: Date)
    requires ValidDate(d) && d.year < 9999
    ensures ValidDate(NextDay(d)) && NextDay(d).year <= d.year + 1
    ensures Weekday(NextDay(d)) == (Weekday(d) + 1) % 7
  {
    WeekdayOfNextDay(d);
  }
}

=== FILE: holidays.dfy ===
/** Marking and unmarking non-working days (`manage_non_working_days`).
    Marking a date closes every existing slot on it and cancels every
    confirmed booking on those slots, but leaves the slots' occupancy counters
    as they were. Unmarking reopens the slots; the cancelled bookings stay
    cancelled. */
module Holidays {
  import opened Wrappers
  import opened Dates
  import opened Models
  import Availability
  import Booking

  /** Outcomes of a POST: a date `strptime` refuses (a server error), a date
      already marked ("This date is already marked as non-working"), or the
      id of the new record. */
  datatype AddOutcome = InvalidDate | AlreadyMarked | Added(id: int)

  /** Outcomes of a DELETE: "Non-working day not found", or success. */
  datatype RemoveOutcome = NotFound | Removed

  /** The reason stored when the request gives none. */
  const DefaultReason := "Holiday"

  /** Whether booking `b` holds a slot on date `d`. */
  predicate IsBookingOn(slots: seq<Slot>, b: SlotBooking, d: Date) {
    1 <= b.slotId <= |slots| && slots[b.slotId - 1].date == d
  }

  /** Every slot on `d` with its availability flag set to `open`. */
  function SetAvailability(slots: seq<Slot>, d: Date, open: bool): (r: seq<Slot>)
    ensures |r| == |slots|
    ensures forall i :: 0 <= i < |slots| && slots[i].date == d ==> r[i] == slots[i].(isAvailable := open)
    ensures forall i :: 0 <= i < |slots| && slots[i].date != d ==> r[i] == slots[i]
  {
    seq(|slots|, i requires 0 <= i < |slots| => if slots[i].date == d then slots[i].(isAvailable := open) else slots[i])
  }

  /** Every confirmed booking on a slot of `d` cancelled. */
  function CancelBookingsOn(bookings: seq<SlotBooking>, slots: seq<Slot>, d: Date): (r: seq<SlotBooking>)
    ensures |r| == |bookings|
    ensures forall k :: 0 <= k < |bookings| && IsBookingOn(slots, bookings[k], d) ==>
      r[k] == bookings[k].(status := Cancelled)
    ensures forall k :: 0 <= k < |bookings| && !IsBookingOn(slots, bookings[k], d) ==> r[k] == bookings[k]
  {
    seq(|bookings|, k requires 0 <= k < |bookings| =>
      if IsBookingOn(slots, bookings[k], d) && bookings[k].status == Confirmed
      then bookings[k].(status := Cancelled)
      else bookings[k])
  }

  /** The POST branch: `reason` is None when the request has no reason key
      (a null reason is stored as the empty string). */
  function AddNonWorkingDay(st: Store, d: Date, reason: Option<string>, isRecurring: bool, adminId: int): (r: (Store, AddOutcome))
    ensures r.1 == InvalidDate <==> !ValidDate(d)
    ensures r.1 == AlreadyMarked <==> ValidDate(d) && exists k :: 0 <= k < |st.nonWorkingDays| && st.nonWorkingDays[k].date == d
    ensures !r.1.Added? ==> r.0 == st
    ensures r.1.Added? ==>
      && r.1.id == st.nextNonWorkingDayId
      && r.0.nonWorkingDays == st.nonWorkingDays + [NonWorkingDay(r.1.id, d, reason.GetOr(DefaultReason), isRecurring, adminId)]
      && r.0.nextNonWorkingDayId == st.nextNonWorkingDayId + 1
      && r.0.settings == st.settings
      && r.0.services == st.services
      && r.0.slots == SetAvailability(st.slots, d, false)
      && r.0.bookings == CancelBookingsOn(st.bookings, st.slots, d)
  {
    if !ValidDate(d) then (st, InvalidDate)
    else if Availability.FindNonWorkingDay(st.nonWorkingDays, d).Some? then (st, AlreadyMarked)
    else
      var id := st.nextNonWorkingDayId;
      var day := NonWorkingDay(id, d, reason.GetOr(DefaultReason), isRecurring, adminId);
      (st.(nonWorkingDays := st.nonWorkingDays + [day],
           nextNonWorkingDayId := id + 1,
           slots := SetAvailability(st.slots, d, false),
           bookings := CancelBookingsOn(st.bookings, st.slots, d)),
       Added(id))
  }

  /** The position of the record with the given id. */
  function FindDay(days: seq<NonWorkingDay>, id: int): (r: Option<nat>)
    ensures r.Some? ==> r.value < |days| && days[r.value].id == id
    ensures r.Some? ==> forall k :: 0 <= k < r.value ==> days[k].id != id
    ensures r.None? <==> forall k :: 0 <= k < |days| ==> days[k].id != id
  {
    if |days| == 0 then None
    else if days[0].id == id then Some(0)
    else match FindDay(days[1..], id)
      case None => None
      case Some(k) => Some(k + 1)
  }

  /** The DELETE branch. */
  function RemoveNonWorkingDay(st: Store, id: int): (r: (Store, RemoveOutcome))
    ensures r.1 == NotFound <==> forall k :: 0 <= k < |st.nonWorkingDays| ==> st.nonWorkingDays[k].id != id
    ensures r.1 == NotFound ==> r.0 == st
    ensures r.1 == Removed ==>
      exists k :: (
        && 0 <= k < |st.nonWorkingDays| && st.nonWorkingDays[k].id == id
        && r.0.nonWorkingDays == st.nonWorkingDays[..k] + st.nonWorkingDays[k + 1..]
        && r.0.slots == SetAvailability(st.slots, st.nonWorkingDays[k].date, true))
    ensures r.1 == Removed ==>
      && r.0.settings == st.settings
      && r.0.nextNonWorkingDayId == st.nextNonWorkingDayId
      && r.0.bookings == st.bookings
      && r.0.services == st.services
  {
    match FindDay(st.nonWorkingDays, id)
    case None => (st, NotFound)
    case Some(k) =>
      var day := st.nonWorkingDays[k];
      (st.(nonWorkingDays := st.nonWorkingDays[..k] + st.nonWorkingDays[k + 1..],
           slots := SetAvailability(st.slots, day.date, true)),
       Removed)
  }

  // ---------------------------------------------------------------------
  // Properties

  /** Opening or closing slots changes no key and no count. */
  lemma SetAvailabilityKeepsTable(slots: seq<Slot>, d: Date, open: bool)
    requires UniqueSlotKeys(slots) && forall i :: 0 <= i < |slots| ==> WithinCapacity(slots[i])
    ensures var r := SetAvailability(slots, d, open);
      && UniqueSlotKeys(r)
      && (forall i :: 0 <= i < |r| ==> WithinCapacity(r[i]))
      && (forall i :: 0 <= i < |r| ==>
            r[i].date == slots[i].date && r[i].time == slots[i].time &&
            r[i].currentBookings == slots[i].currentBookings && r[i].maxBookings == slots[i].maxBookings)
  {
  }

  /** Marking a date keeps every invariant; in particular there is still at
      most one record per date. */
  lemma AddPreservesValid(st: Store, d: Date, reason: Option<string>, isRecurring: bool, adminId: int)
    requires Valid(st)
    ensures Valid(AddNonWorkingDay(st, d, reason, isRecurring, adminId).0)
  {
    var r := AddNonWorkingDay(st, d, reason, isRecurring, adminId);
    if r.1.Added? {
      SetAvailabilityKeepsTable(st.slots, d, false);
      assert NonWorkingDaysOk(r.0.nonWorkingDays, r.0.nextNonWorkingDayId);
      forall k | 0 <= k < |r.0.bookings|
        ensures IsSlotId(r.0, r.0.bookings[k].slotId)
        ensures r.0.bookings[k].serviceId.Some? ==> 1 <= r.0.bookings[k].serviceId.value <= |r.0.services|
      {
        assert r.0.bookings[k].slotId == st.bookings[k].slotId;
        assert r.0.bookings[k].serviceId == st.bookings[k].serviceId;
      }
    }
  }

  /** Dropping one record keeps dates and ids distinct and below the counter. */
  lemma DropDayKeepsRecordsOk(days: seq<NonWorkingDay>, nextId: int, k: nat)
    requires NonWorkingDaysOk(days, nextId) && k < |days|
    ensures NonWorkingDaysOk(days[..k] + days[k + 1..], nextId)
  {
    var rest := days[..k] + days[k + 1..];
    assert forall j :: 0 <= j < |rest| ==> rest[j] == (if j < k then days[j] else days[j + 1]);
  }

  /** Unmarking a date keeps every invariant. */
  lemma RemovePreservesValid(st: Store, id: int)
    requires Valid(st)
    ensures Valid(RemoveNonWorkingDay(st, id).0)
  {
    var r := RemoveNonWorkingDay(st, id);
    if r.1 == Removed {
      var k := FindDay(st.nonWorkingDays, id).value;
      DropDayKeepsRecordsOk(st.nonWorkingDays, st.nextNonWorkingDayId, k);
      SetAvailabilityKeepsTable(st.slots, st.nonWorkingDays[k].date, true);
      assert r.0 == st.(nonWorkingDays := st.nonWorkingDays[..k] + st.nonWorkingDays[k + 1..],
                        slots := SetAvailability(st.slots, st.nonWorkingDays[k].date, true));
    }
  }

  /** The cascade cancels bookings without lowering occupancy: from a store
      in sync, marking a date that holds a confirmed booking leaves that
      booking's slot counting a booking that is no longer confirmed. */
  lemma AddBreaksSync(st: Store, d: Date, reason: Option<string>, isRecurring: bool, adminId: int, k: nat)
    requires OccupancySynced(st)
    requires ValidDate(d) && forall j :: 0 <= j < |st.nonWorkingDays| ==> st.nonWorkingDays[j].date != d
    requires k < |st.bookings| && st.bookings[k].status == Confirmed && IsBookingOn(st.slots, st.bookings[k], d)
    ensures var r := AddNonWorkingDay(st, d, reason, isRecurring, adminId);
      r.1.Added? && !OccupancySynced(r.0)
  {
    var r := AddNonWorkingDay(st, d, reason, isRecurring, adminId);
    var id := st.bookings[k].slotId;
    ConfirmedCountPositive(st.bookings, k);
    forall j | 0 <= j < |r.0.bookings| && r.0.bookings[j].slotId == id
      ensures r.0.bookings[j].status != Confirmed
    {
      assert IsBookingOn(st.slots, st.bookings[j], d);
    }
    ConfirmedCountNone(r.0.bookings, id);
    assert r.0.slots[id - 1].currentBookings == st.slots[id - 1].currentBookings;
  }

  /** Marking a weekday closes it to availability queries, with the stored
      reason. */
  lemma QueryAfterAdd(st: Store, d: Date, reason: Option<string>, isRecurring: bool, adminId: int)
    requires ValidDate(d) && !IsWeekend(d)
    requires AddNonWorkingDay(st, d, reason, isRecurring, adminId).1.Added?
    ensures var r := AddNonWorkingDay(st, d, reason, isRecurring, adminId);
      Availability.GetAvailableSlots(r.0, d) ==
        (r.0, Availability.Closed(Availability.ClosedReason(NonWorkingDay(r.1.id, d, reason.GetOr(DefaultReason), isRecurring, adminId))))
  {
    var r := AddNonWorkingDay(st, d, reason, isRecurring, adminId);
    FirstDayMatch(st.nonWorkingDays, NonWorkingDay(r.1.id, d, reason.GetOr(DefaultReason), isRecurring, adminId));
  }

  lemma {:induction false} FirstDayMatch(days: seq<NonWorkingDay>, day: NonWorkingDay)
    requires forall j :: 0 <= j < |days| ==> days[j].date != day.date
    ensures Availability.FindNonWorkingDay(days + [day], day.date) == Some(day)
    decreases |days|
  {
    if |days| > 0 {
      assert (days + [day])[1..] == days[1..] + [day];
      FirstDayMatch(days[1..], day);
    }
  }

  /** Booking does not consult the closure: a slot on a marked date that
      still has capacity takes a new confirmed booking. */
  lemma BookingAfterAdd(st: Store, d: Date, reason: Option<string>, isRecurring: bool, adminId: int,
                        slotId: int, userId: int, vehicleId: int, serviceType: string, notes: string)
    requires IsSlotId(st, slotId) && SlotOf(st, slotId).date == d && !IsFullyBooked(SlotOf(st, slotId))
    requires AddNonWorkingDay(st, d, reason, isRecurring, adminId).1.Added?
    ensures var r := AddNonWorkingDay(st, d, reason, isRecurring, adminId);
      && !SlotOf(r.0, slotId).isAvailable
      && var b := Booking.BookSlot(r.0, slotId, userId, vehicleId, serviceType, notes);
         (b.1.Booked? || b.1.BookedWithoutService?) && b.0.bookings[|r.0.bookings|].status == Confirmed
  {
    var r := AddNonWorkingDay(st, d, reason, isRecurring, adminId);
    Booking.BookingRaisesOneSlot(r.0, slotId, userId, vehicleId, serviceType, notes);
  }

  /** Unmarking right after marking restores the records and reopens every
      slot on the date, but the bookings the marking cancelled stay
      cancelled and the counters are unchanged throughout. */
  lemma AddThenRemove(st: Store, d: Date, reason: Option<string>, isRecurring: bool, adminId: int)
    requires Valid(st)
    requires AddNonWorkingDay(st, d, reason, isRecurring, adminId).1.Added?
    ensures var a := AddNonWorkingDay(st, d, reason, isRecurring, adminId);
      var r := RemoveNonWorkingDay(a.0, a.1.id);
      && r.1 == Removed
      && r.0.nonWorkingDays == st.nonWorkingDays
      && r.0.bookings == a.0.bookings
      && |r.0.slots| == |st.slots|
      && (forall i :: 0 <= i < |st.slots| && st.slots[i].date == d ==> r.0.slots[i] == st.slots[i].(isAvailable := true))
      && (forall i :: 0 <= i < |st.slots| && st.slots[i].date != d ==> r.0.slots[i] == st.slots[i])
  {
    var a := AddNonWorkingDay(st, d, reason, isRecurring, adminId);
    var days := a.0.nonWorkingDays;
    var n := |st.nonWorkingDays|;
    assert days[n].id == a.1.id;
    assert forall j :: 0 <= j < n ==> days[j].id != a.1.id;
    var found := FindDay(days, a.1.id);
    assert found.Some?;
    assert found.value == n;
    assert days[..n] + days[n + 1..] == st.nonWorkingDays;
  }
}

=== FILE: models.dfy ===
/** The persistent state of the slot-booking calendar: the settings row, the
    non-working days, the booking slots, the slot bookings and the service
    tickets derived from them.

    None of the modelled handlers deletes a slot, a booking or a service
    ticket, so each of these tables is a sequence in insertion order and a
    row's integer id is its position plus one, as the database assigns ids
    from 1. (Account deletion, which is not modelled, does delete a
    customer's service tickets.) Non-working days can be deleted, so they
    carry their id and the store keeps the next fresh one. */
module Models {
  import opened Wrappers
  import opened Dates
  import opened Clock

  datatype BookingStatus = Confirmed | Cancelled

  /** The statuses a service ticket passes through in the wider application. */
  datatype ServiceStatus = Scheduled | InProgress | Completed | ServiceCancelled

  /** A `BookingSlot` row. `time` is the label the slot was created under,
      such as "09:00 AM"; `maxBookings` is the capacity copied from the
      settings when the slot was created. */
  datatype Slot = Slot(
    date: Date,
    time: string,
    maxBookings: int,
    currentBookings: int,
    isAvailable: bool)

  /** `is_fully_booked`: the occupancy has reached the capacity. A slot
      within its capacity is full exactly when it holds `max_bookings`
      bookings. */
  function IsFullyBooked(s: Slot): (r: bool)
    ensures WithinCapacity(s) ==> (r <==> s.currentBookings == s.maxBookings)
  {
    s.currentBookings >= s.maxBookings
  }

  /** A slot within its capacity that is not full stays within its capacity
      when it takes one more booking, and a full one would not. */
  lemma NotFullHasRoom(s: Slot)
    requires WithinCapacity(s)
    ensures !IsFullyBooked(s) <==> WithinCapacity(s.(currentBookings := s.currentBookings + 1))
  {
  }

  /** A `SlotBooking` row; `serviceId` stays None until a service ticket is
      linked to it. */
  datatype SlotBooking = SlotBooking(
    slotId: int,
    serviceId: Option<int>,
    userId: int,
    vehicleId: int,
    serviceType: string,
    status: BookingStatus,
    notes: string)

  /** A slot's date combined with the time of day parsed from its label. */
  datatype Timestamp = Timestamp(date: Date, time: ClockTime)

  /** The fields of a `Service` ticket that booking a slot fills in. */
  datatype Service = Service(
    serviceType: string,
    scheduledDate: Timestamp,
    status: ServiceStatus,
    vehicleId: int,
    userId: int,
    notes: string)

  /** The `slot_times` column holds JSON text: absent or empty (`Missing`),
      text that does not decode (`Undecodable`), or a decoded list of labels. */
  datatype SlotTimes = Missing | Undecodable | Decoded(labels: seq<string>)

  /** The single `SlotSettings` row. */
  datatype SlotSettings = SlotSettings(
    slotsPerDay: int,
    slotTimes: SlotTimes,
    maxBookingsPerSlot: int,
    advanceDays: int)

  /** A `NonWorkingDay` row; `createdBy` is the admin's `real_id`. */
  datatype NonWorkingDay = NonWorkingDay(
    id: int,
    date: Date,
    reason: string,
    isRecurring: bool,
    createdBy: int)

  datatype Store = Store(
    settings: Option<SlotSettings>,
    nonWorkingDays: seq<NonWorkingDay>,
    nextNonWorkingDayId: int,
    slots: seq<Slot>,
    bookings: seq<SlotBooking>,
    services: seq<Service>)

  /** The time labels used whenever the settings hold none that decode. */
  const DefaultSlotTimes: seq<string> := ["09:00 AM", "11:00 AM", "01:00 PM", "03:00 PM", "05:00 PM"]

  /** The settings row created on first use: five slots a day, one booking
      per slot, bookings up to thirty days ahead. */
  const DefaultSettings := SlotSettings(5, Decoded(DefaultSlotTimes), 1, 30)

  /** A store with empty tables and no settings row. */
  const EmptyStore := Store(None, [], 1, [], [], [])

  /** Python's `x or 1` on an integer column: zero is replaced by one. */
  function OrOne(x: int): (r: int)
    ensures r != 0
    ensures x != 0 ==> r == x
    ensures x == 0 ==> r == 1
  {
    if x == 0 then 1 else x
  }

  /** The labels the settings stand for: the decoded list, or the default
      list when the column is empty or does not decode. */
  function EffectiveSlotTimes(t: SlotTimes): (r: seq<string>)
    ensures t.Decoded? ==> r == t.labels
    ensures !t.Decoded? ==> r == DefaultSlotTimes
  {
    match t
    case Decoded(labels) => labels
    case _ => DefaultSlotTimes
  }

  /** The settings in force: the stored row, or the defaults before one exists. */
  function SettingsInForce(st: Store): (s: SlotSettings)
    ensures st.settings.Some? ==> s == st.settings.value
    ensures st.settings.None? ==> s == DefaultSettings
  {
    st.settings.GetOr(DefaultSettings)
  }

  predicate IsSlotId(st: Store, id: int) {
    1 <= id <= |st.slots|
  }

  /** The slot a valid id names. */
  function SlotOf(st: Store, id: int): Slot
    requires IsSlotId(st, id)
  {
    st.slots[id - 1]
  }

  // ---------------------------------------------------------------------
  // Invariants

  /** At most one slot per (date, time label). No database constraint says
      so; only the get-or-create of slot materialization keeps it. */
  predicate UniqueSlotKeys(slots: seq<Slot>) {
    forall i, j :: 0 <= i < j < |slots| ==>
      slots[i].date != slots[j].date || slots[i].time != slots[j].time
  }

  /** Capacity is at least one and the occupancy lies between zero and it. */
  predicate WithinCapacity(s: Slot) {
    1 <= s.maxBookings && 0 <= s.currentBookings <= s.maxBookings
  }

  /** The stored per-day count, capacity and horizon are positive. */
  predicate SettingsOk(o: Option<SlotSettings>) {
    o.Some? ==> o.value.slotsPerDay >= 1 && o.value.maxBookingsPerSlot >= 1 && o.value.advanceDays >= 1
  }

  /** At most one non-working-day record per date, and ids that are
      distinct and below the next fresh id. */
  predicate NonWorkingDaysOk(days: seq<NonWorkingDay>, nextId: int) {
    && 1 <= nextId
    && (forall i, j :: 0 <= i < j < |days| ==> days[i].date != days[j].date)
    && (forall i, j :: 0 <= i < j < |days| ==> days[i].id != days[j].id)
    && (forall i :: 0 <= i < |days| ==> 1 <= days[i].id < nextId)
  }

  /** Every booking names an existing slot and, once linked, an existing
      service ticket. */
  predicate ReferencesOk(st: Store) {
    forall k :: 0 <= k < |st.bookings| ==>
      && IsSlotId(st, st.bookings[k].slotId)
      && (st.bookings[k].serviceId.Some? ==> 1 <= st.bookings[k].serviceId.value <= |st.services|)
  }

  /** The invariants every request handler of the calendar preserves. */
  predicate Valid(st: Store) {
    && SettingsOk(st.settings)
    && NonWorkingDaysOk(st.nonWorkingDays, st.nextNonWorkingDayId)
    && UniqueSlotKeys(st.slots)
    && (forall i :: 0 <= i < |st.slots| ==> WithinCapacity(st.slots[i]))
    && ReferencesOk(st)
  }

  /** The number of confirmed bookings held against slot `slotId`. */
  function ConfirmedCount(bookings: seq<SlotBooking>, slotId: int): nat {
    if |bookings| == 0 then 0
    else
      var last := bookings[|bookings| - 1];
      ConfirmedCount(bookings[..|bookings| - 1], slotId)
        + (if last.slotId == slotId && last.status == Confirmed then 1 else 0)
  }

  /** Each slot's occupancy counter equals its number of confirmed bookings.
      Booking keeps this; marking a non-working day does not. */
  predicate OccupancySynced(st: Store) {
    forall i :: 0 <= i < |st.slots| ==> st.slots[i].currentBookings == ConfirmedCount(st.bookings, i + 1)
  }

  /** A slot with no confirmed booking referring to it has a count of zero. */
  lemma {:induction false} ConfirmedCountNone(bookings: seq<SlotBooking>, slotId: int)
    requires forall k :: 0 <= k < |bookings| && bookings[k].slotId == slotId ==> bookings[k].status != Confirmed
    ensures ConfirmedCount(bookings, slotId) == 0
    decreases |bookings|
  {
    if |bookings| > 0 {
      ConfirmedCountNone(bookings[..|bookings| - 1], slotId);
    }
  }

  /** A confirmed booking on a slot makes its count positive. */
  lemma {:induction false} ConfirmedCountPositive(bookings: seq<SlotBooking>, k: nat)
    requires k < |bookings| && bookings[k].status == Confirmed
    ensures ConfirmedCount(bookings, bookings[k].slotId) >= 1
    decreases |bookings|
  {
    if k < |bookings| - 1 {
      ConfirmedCountPositive(bookings[..|bookings| - 1], k);
    }
  }

  /** The empty store satisfies every invariant and is in sync. */
  lemma EmptyStoreValid()
    ensures Valid(EmptyStore) && OccupancySynced(EmptyStore)
  {
  }
}

=== FILE: principals.dfy ===
/** Account identity as the session layer sees it. Customers and admins live
    in separate tables whose integer keys overlap, so each account's session id
    is its key behind a kind prefix (`User.get_id` gives "user_N",
    `Admin.get_id` gives "admin_N"), and `load_user` tells the kinds apart by
    that prefix. The lookup of the account row that follows the decoding, and
    the fallback for ids without a prefix, need the database and are not part
    of this model. */
module Principals {
  import opened Wrappers
  import opened Text

  datatype Principal = Customer(id: int) | Administrator(id: int)

  const UserPrefix := "user_"
  const AdminPrefix := "admin_"

  /** `real_id`: the integer primary key, for either kind of account. */
  function RealId(p: Principal): (r: int)
    ensures p == Customer(r) || p == Administrator(r)
  {
    p.id
  }

  /** `str(n)` for an integer of either sign. */
  function IntToString(n: int): (r: string)
    ensures |r| >= 1
    ensures r[0] == '-' || IsDigit(r[0])
    ensures forall k :: 1 <= k < |r| ==> IsDigit(r[k])
  {
    if n < 0 then "-" + Numeral(-n) else Numeral(n)
  }

  /** The session id that `get_id` stores for an account. */
  function GetId(p: Principal): (r: string)
    ensures p.Customer? ==> StartsWith(r, UserPrefix) && !StartsWith(r, AdminPrefix)
    ensures p.Administrator? ==> StartsWith(r, AdminPrefix) && !StartsWith(r, UserPrefix)
  {
    var prefix := if p.Customer? then UserPrefix else AdminPrefix;
    var r := prefix + IntToString(p.id);
    assert r[..|prefix|] == prefix;
    assert r[0] == prefix[0];
    r
  }

  /** No copy of `pattern` starts anywhere in `s`. */
  predicate Absent(s: string, pattern: string) {
    forall k :: 0 <= k < |s| ==> !StartsWith(s[k..], pattern)
  }

  /** `s.replace(pattern, '')`: every occurrence of `pattern`, found scanning
      from the left without overlaps, is deleted. */
  function RemoveAll(s: string, pattern: string): (r: string)
    requires |pattern| > 0
    ensures |r| <= |s|
    ensures Absent(s, pattern) ==> r == s
    ensures StartsWith(s, pattern) && |s| == |pattern| ==> r == []
    decreases |s|
  {
    if |s| == 0 then []
    else if StartsWith(s, pattern) then
      assert s[0..] == s;
      RemoveAll(s[|pattern|..], pattern)
    else
      assert forall k :: 1 <= k < |s| ==> s[1..][k - 1..] == s[k..];
      [s[0]] + RemoveAll(s[1..], pattern)
  }

  /** `s` without the surrounding whitespace that `int` ignores. */
  function Strip(s: string): (r: string)
    ensures |r| <= |s|
    ensures |r| > 0 ==> !IsSpace(r[0]) && !IsSpace(r[|r| - 1])
    decreases |s|
  {
    if |s| > 0 && IsSpace(s[0]) then Strip(s[1..])
    else if |s| > 0 && IsSpace(s[|s| - 1]) then Strip(s[..|s| - 1])
    else s
  }

  /** Digits in groups joined by single underscores, as Python integer
      literals allow them. */
  predicate IsDigitBody(b: string) {
    && |b| > 0
    && IsDigit(b[0]) && IsDigit(b[|b| - 1])
    && (forall k :: 0 <= k < |b| ==> IsDigit(b[k]) || b[k] == '_')
    && (forall k :: 0 <= k < |b| - 1 ==> b[k] == '_' ==> b[k + 1] != '_')
  }

  function DropUnderscores(b: string): (r: string)
    requires forall k :: 0 <= k < |b| ==> IsDigit(b[k]) || b[k] == '_'
    ensures AllDigits(r)
    ensures AllDigits(b) ==> r == b
  {
    if |b| == 0 then []
    else if b[0] == '_' then DropUnderscores(b[1..])
    else [b[0]] + DropUnderscores(b[1..])
  }

  /** `int(s)` on a string, in base ten: surrounding whitespace is ignored, a
      sign may lead, and single underscores may separate digits. None where
      `int` raises ValueError. */
  function ParseInt(s: string): (r: Option<int>)
    ensures var t := Strip(s);
      r.Some? <==> |t| > 0 && IsDigitBody(if t[0] == '-' || t[0] == '+' then t[1..] else t)
    ensures r.Some? && Strip(s)[0] == '-' ==> r.value <= 0
    ensures r.Some? && Strip(s)[0] != '-' ==> r.value >= 0
    ensures |s| > 0 && AllDigits(s) ==> r == Some(NumeralValue(s))
  {
    StripOfNumeral(s);
    var t := Strip(s);
    if |t| == 0 then None
    else
      var negative := t[0] == '-';
      var body := if t[0] == '-' || t[0] == '+' then t[1..] else t;
      if IsDigitBody(body) then
        var magnitude: int := NumeralValue(DropUnderscores(body));
        Some(if negative then -magnitude else magnitude)
      else None
  }

  /** What `load_user` makes of a session id. */
  datatype LoadedId =
    | Account(principal: Principal)  // the key to look up, in the table the prefix names
    | Unprefixed                     // neither prefix: the fallback lookup, not modelled
    | Malformed                      // `int` raised, and `load_user` returns None

  /** The decoding branch of `load_user`: the admin prefix is checked first,
      then the customer prefix; the prefix text is removed wherever it occurs
      and the remainder goes through `int`. */
  function LoadUser(s: string): (r: LoadedId)
    ensures r.Account? ==> (r.principal.Administrator? <==> StartsWith(s, AdminPrefix))
    ensures r.Unprefixed? <==> !StartsWith(s, AdminPrefix) && !StartsWith(s, UserPrefix)
  {
    if StartsWith(s, AdminPrefix) then
      match ParseInt(RemoveAll(s, AdminPrefix))
      case Some(n) => Account(Administrator(n))
      case None => Malformed
    else if StartsWith(s, UserPrefix) then
      match ParseInt(RemoveAll(s, UserPrefix))
      case Some(n) => Account(Customer(n))
      case None => Malformed
    else Unprefixed
  }

  lemma StripOfNumeral(s: string)
    ensures |s| > 0 && AllDigits(s) ==> Strip(s) == s
  {
    if |s| > 0 && AllDigits(s) {
      StripUnspaced(s);
    }
  }

  lemma StripUnspaced(s: string)
    requires |s| > 0 && !IsSpace(s[0]) && !IsSpace(s[|s| - 1])
    ensures Strip(s) == s
  {
  }

  /** `int(str(n)) == n`. */
  lemma ParseIntOfString(n: int)
    ensures ParseInt(IntToString(n)) == Some(n)
  {
    var s := IntToString(n);
    StripUnspaced(s);
    var m: nat := if n < 0 then -n else n;
    var body := Numeral(m);
    assert body == if n < 0 then s[1..] else s;
    NumeralValueOfNumeral(m);
    assert IsDigitBody(body);
  }

  /** Deleting a pattern that cannot start anywhere in `s` leaves `s` alone. */
  lemma {:induction false} RemoveAllAbsent(s: string, pattern: string)
    requires |pattern| > 0
    requires forall k :: 0 <= k < |s| ==> s[k] != pattern[0]
    ensures RemoveAll(s, pattern) == s
    decreases |s|
  {
    if |s| > 0 {
      assert !StartsWith(s, pattern) by {
        assert s[0] != pattern[0];
      }
      RemoveAllAbsent(s[1..], pattern);
      assert s == [s[0]] + s[1..];
    }
  }

  /** Decoding a stored session id recovers the same kind of account with
      the same key. */
  lemma {:induction false} LoadUserOfGetId(p: Principal)
    ensures LoadUser(GetId(p)) == Account(p)
  {
    var prefix := if p.Customer? then UserPrefix else AdminPrefix;
    var digits := IntToString(p.id);
    var s := GetId(p);
    assert s == prefix + digits;
    assert s[|prefix|..] == digits;
    RemoveAllAbsent(digits, prefix);
    assert RemoveAll(s, prefix) == digits;
    ParseIntOfString(p.id);
  }

  /** Different accounts never share a session id, even when a customer and
      an admin have the same key. */
  lemma GetIdInjective(p: Principal, q: Principal)
    requires GetId(p) == GetId(q)
    ensures p == q
  {
    LoadUserOfGetId(p);
    LoadUserOfGetId(q);
  }

  /** The key that `load_user` recovers from a session id is the account's
      `real_id`. */
  lemma RealIdOfLoadedId(p: Principal)
    ensures LoadUser(GetId(p)).Account? && RealId(LoadUser(GetId(p)).principal) == p.id
  {
    LoadUserOfGetId(p);
  }

  lemma RemoveAllLeading(pattern: string, t: string)
    requires |pattern| > 0
    ensures RemoveAll(pattern + t, pattern) == RemoveAll(t, pattern)
  {
    assert (pattern + t)[..|pattern|] == pattern;
    assert (pattern + t)[|pattern|..] == t;
  }

  /** Decoding an id built from a prefix and a tail: the prefix is
      recognised and the tail, with every further copy of the prefix
      deleted, goes through `int`. */
  lemma LoadUserOfPrefixed(admin: bool, t: string)
    ensures var prefix := if admin then AdminPrefix else UserPrefix;
      LoadUser(prefix + t) ==
        match ParseInt(RemoveAll(t, prefix))
        case Some(n) => Account(if admin then Administrator(n) else Customer(n))
        case None => Malformed
  {
    var prefix := if admin then AdminPrefix else UserPrefix;
    assert (prefix + t)[..|prefix|] == prefix;
    if !admin {
      assert (prefix + t)[0] == 'u';
      assert !StartsWith(prefix + t, AdminPrefix);
    }
    RemoveAllLeading(prefix, t);
  }

  /** Decoding is more lenient than encoding: the prefix is deleted wherever
      it occurs, so "admin_admin_7" names the same admin as "admin_7". */
  lemma RepeatedPrefixDecodes()
    ensures LoadUser("admin_admin_7") == Account(Administrator(7))
  {
    assert "admin_admin_7" == AdminPrefix + (AdminPrefix + "7");
    LoadUserOfPrefixed(true, AdminPrefix + "7");
    RemoveAllLeading(AdminPrefix, "7");
    RemoveAllAbsent("7", AdminPrefix);
    assert AllDigits("7") && NumeralValue("7") == 7;
  }

  /** `int` accepts digit separators, so "user_1_0" names customer 10, as
      does "user_10". */
  lemma SeparatedDigitsDecode()
    ensures LoadUser("user_1_0") == Account(Customer(10))
  {
    assert "user_1_0" == UserPrefix + "1_0";
    LoadUserOfPrefixed(false, "1_0");
    RemoveAllAbsent("1_0", UserPrefix);
    SeparatedDigitsParse();
  }

  lemma SeparatedDigitsParse()
    ensures ParseInt("1_0") == Some(10)
  {
    assert DropUnderscores("1_0") == "10" by {
      assert DropUnderscores("0") == "0";
      assert DropUnderscores("_0") == "0";
    }
    assert NumeralValue("10") == 10 by {
      assert "10"[..1] == "1";
      assert NumeralValue("1") == 1;
    }
    StripUnspaced("1_0");
    assert IsDigitBody("1_0");
  }

  /** `replace` deletes copies of the pattern wherever they occur, not only
      at the start: text that cannot begin a copy is kept, and the deletion
      goes on after it. */
  lemma {:induction false} RemoveAllAfterPlain(x: string, y: string, pattern: string)
    requires |pattern| > 0
    requires forall k :: 0 <= k < |x| ==> x[k] != pattern[0]
    ensures RemoveAll(x + y, pattern) == x + RemoveAll(y, pattern)
    decreases |x|
  {
    if |x| > 0 {
      var s := x + y;
      assert s[0] == x[0] && s[1..] == x[1..] + y;
      RemoveAllStep(s, pattern);
      RemoveAllAfterPlain(x[1..], y, pattern);
      var rest := RemoveAll(y, pattern);
      assert x == [x[0]] + x[1..];
      SeqAssoc([x[0]], x[1..], rest);
    } else {
      assert x + y == y;
    }
  }

  /** A first character that cannot start the pattern is kept. */
  lemma RemoveAllStep(s: string, pattern: string)
    requires |pattern| > 0 && |s| > 0 && s[0] != pattern[0]
    ensures RemoveAll(s, pattern) == [s[0]] + RemoveAll(s[1..], pattern)
  {
    assert !StartsWith(s, pattern) by {
      if |pattern| <= |s| {
        assert s[..|pattern|][0] == s[0];
      }
    }
  }

  lemma SeqAssoc(a: string, b: string, c: string)
    ensures a + (b + c) == (a + b) + c
  {
  }

  /** A copy of the prefix in the middle of an id is deleted too, so
      "user_1user_2" names customer 12. */
  lemma InnerPrefixDecodes()
    ensures LoadUser("user_1user_2") == Account(Customer(12))
  {
    var t := "1" + (UserPrefix + "2");
    assert "user_1user_2" == UserPrefix + t;
    LoadUserOfPrefixed(false, t);
    InnerPrefixRemoved();
    assert AllDigits("12") && NumeralValue("12") == 12 by {
      assert "12"[..1] == "1";
    }
  }

  lemma InnerPrefixRemoved()
    ensures RemoveAll("1" + (UserPrefix + "2"), UserPrefix) == "12"
  {
    RemoveAllAfterPlain("1", UserPrefix + "2", UserPrefix);
    RemoveAllLeading(UserPrefix, "2");
    RemoveAllAbsent("2", UserPrefix);
    assert "1" + "2" == "12";
  }

  /** Whitespace after a text whose last character is not whitespace is
      stripped. */
  lemma {:induction false} StripTrailing(s: string, w: string)
    requires |s| > 0 && !IsSpace(s[0]) && !IsSpace(s[|s| - 1])
    requires forall k :: 0 <= k < |w| ==> IsSpace(w[k])
    ensures Strip(s + w) == s
    decreases |w|
  {
    if |w| == 0 {
      assert s + w == s;
      StripUnspaced(s);
    } else {
      var t := s + w;
      assert t[0] == s[0] && t[|t| - 1] == w[|w| - 1];
      assert t[..|t| - 1] == s + w[..|w| - 1];
      StripTrailing(s, w[..|w| - 1]);
    }
  }

  /** Whitespace around a text with no whitespace at its ends is stripped. */
  lemma {:induction false} StripPadding(w: string, s: string, w2: string)
    requires |s| > 0 && !IsSpace(s[0]) && !IsSpace(s[|s| - 1])
    requires forall k :: 0 <= k < |w| ==> IsSpace(w[k])
    requires forall k :: 0 <= k < |w2| ==> IsSpace(w2[k])
    ensures Strip(w + s + w2) == s
    decreases |w|
  {
    if |w| == 0 {
      assert w + s + w2 == s + w2;
      StripTrailing(s, w2);
    } else {
      assert (w + s + w2)[0] == w[0];
      assert (w + s + w2)[1..] == w[1..] + s + w2;
      StripPadding(w[1..], s, w2);
    }
  }

  /** `int` ignores whitespace around the number. */
  lemma ParseIntIgnoresPadding(w: string, s: string, w2: string)
    requires |s| > 0 && !IsSpace(s[0]) && !IsSpace(s[|s| - 1])
    requires forall k :: 0 <= k < |w| ==> IsSpace(w[k])
    requires forall k :: 0 <= k < |w2| ==> IsSpace(w2[k])
    ensures ParseInt(w + s + w2) == ParseInt(s)
  {
    StripPadding(w, s, w2);
    StripUnspaced(s);
  }

  /** A leading "+" changes nothing, for any unsigned text with no
      whitespace at its ends. */
  lemma ParseIntOfPlus(d: string)
    requires |d| > 0 && !IsSpace(d[0]) && !IsSpace(d[|d| - 1])
    requires d[0] != '-' && d[0] != '+'
    ensures ParseInt("+" + d) == ParseInt(d)
  {
    var t := "+" + d;
    assert t[0] == '+' && t[|t| - 1] == d[|d| - 1] && t[1..] == d;
    StripUnspaced(d);
    StripUnspaced(t);
  }

  /** A leading "-" negates, for any unsigned text with no whitespace at
      its ends. */
  lemma ParseIntOfMinus(d: string)
    requires |d| > 0 && !IsSpace(d[0]) && !IsSpace(d[|d| - 1])
    requires d[0] != '-' && d[0] != '+'
    ensures ParseInt("-" + d) == match ParseInt(d) case Some(n) => Some(-n) case None => None
  {
    var t := "-" + d;
    assert t[0] == '-' && t[|t| - 1] == d[|d| - 1] && t[1..] == d;
    StripUnspaced(d);
    StripUnspaced(t);
  }

  /** Dropping underscores works piece by piece. */
  lemma {:induction false} DropUnderscoresAppend(x: string, y: string)
    requires forall k :: 0 <= k < |x| ==> IsDigit(x[k]) || x[k] == '_'
    requires forall k :: 0 <= k < |y| ==> IsDigit(y[k]) || y[k] == '_'
    ensures DropUnderscores(x + y) == DropUnderscores(x) + DropUnderscores(y)
    decreases |x|
  {
    if |x| == 0 {
      assert x + y == y;
    } else {
      assert (x + y)[0] == x[0];
      assert (x + y)[1..] == x[1..] + y;
      DropUnderscoresAppend(x[1..], y);
    }
  }

  /** An underscore between digit groups is dropped and nothing else is:
      the digits on both sides are kept, in order. */
  lemma DropUnderscoresJoins(x: string, y: string)
    requires forall k :: 0 <= k < |x| ==> IsDigit(x[k]) || x[k] == '_'
    requires forall k :: 0 <= k < |y| ==> IsDigit(y[k]) || y[k] == '_'
    ensures DropUnderscores(x + "_" + y) == DropUnderscores(x) + DropUnderscores(y)
  {
    assert DropUnderscores("_") == [];
    DropUnderscoresAppend(x, "_");
    DropUnderscoresAppend(x + "_", y);
    assert DropUnderscores(x) + [] == DropUnderscores(x);
  }
}

=== FILE: services.dfy ===
/** Cancelling a service ticket (`cancel_service`). The handler refuses an
    unknown ticket, a ticket whose owner is not the caller's numeric id, and
    a ticket that is no longer scheduled; otherwise it marks the ticket
    cancelled. It touches no slot and no slot booking: the booking that
    created the ticket stays confirmed and keeps its seat. */
module Services {
  import opened Wrappers
  import opened Models
  import opened Principals
  import Booking

  /** The handler's outcomes: not found (404), "You do not have permission",
      "Only scheduled services can be cancelled", and success. */
  datatype CancelOutcome = UnknownService | NotOwner | NotScheduled | TicketCancelled

  /** Whether `serviceId` names a stored ticket. */
  predicate IsServiceId(st: Store, serviceId: int) {
    1 <= serviceId <= |st.services|
  }

  /** `cancel_service` called by `caller`; the ownership test compares the
      ticket's customer id with the caller's numeric id alone. */
  function CancelService(st: Store, serviceId: int, caller: Principal): (r: (Store, CancelOutcome))
    ensures r.1 == UnknownService <==> !IsServiceId(st, serviceId)
    ensures r.1 == NotOwner <==>
      IsServiceId(st, serviceId) && st.services[serviceId - 1].userId != RealId(caller)
    ensures r.1 == NotScheduled <==>
      && IsServiceId(st, serviceId) && st.services[serviceId - 1].userId == RealId(caller)
      && st.services[serviceId - 1].status != Scheduled
    ensures r.1 != TicketCancelled ==> r.0 == st
    ensures r.1 == TicketCancelled ==>
      && |r.0.services| == |st.services|
      && r.0.services[serviceId - 1] == st.services[serviceId - 1].(status := ServiceCancelled)
      && (forall j :: 0 <= j < |st.services| && j != serviceId - 1 ==> r.0.services[j] == st.services[j])
    ensures r.0.settings == st.settings && r.0.nonWorkingDays == st.nonWorkingDays
    ensures r.0.nextNonWorkingDayId == st.nextNonWorkingDayId
    ensures r.0.slots == st.slots && r.0.bookings == st.bookings
  {
    if !IsServiceId(st, serviceId) then (st, UnknownService)
    else
      var service := st.services[serviceId - 1];
      if service.userId != RealId(caller) then (st, NotOwner)
      else if service.status != Scheduled then (st, NotScheduled)
      else (st.(services := st.services[serviceId - 1 := service.(status := ServiceCancelled)]), TicketCancelled)
  }

  /** Cancelling a ticket keeps every invariant and every occupancy counter
      in sync, since it changes neither slots nor bookings. */
  lemma CancelServicePreservesValid(st: Store, serviceId: int, caller: Principal)
    requires Valid(st)
    ensures Valid(CancelService(st, serviceId, caller).0)
    ensures OccupancySynced(st) ==> OccupancySynced(CancelService(st, serviceId, caller).0)
  {
    var r := CancelService(st, serviceId, caller);
    assert ReferencesOk(r.0) by {
      forall k | 0 <= k < |r.0.bookings|
        ensures IsSlotId(r.0, r.0.bookings[k].slotId)
        ensures r.0.bookings[k].serviceId.Some? ==> 1 <= r.0.bookings[k].serviceId.value <= |r.0.services|
      {
        assert r.0.bookings[k] == st.bookings[k];
      }
    }
  }

  /** A ticket can be cancelled once: the second attempt is refused as no
      longer scheduled and changes nothing. */
  lemma CancelServiceOnce(st: Store, serviceId: int, caller: Principal)
    requires CancelService(st, serviceId, caller).1 == TicketCancelled
    ensures var r := CancelService(st, serviceId, caller);
      CancelService(r.0, serviceId, caller) == (r.0, NotScheduled)
  {
  }

  /** Cancelling the ticket a booking created leaves the booking confirmed
      and its slot's occupancy as it was: the seat stays taken. */
  lemma CancelledTicketKeepsSeat(st: Store, slotId: int, userId: int, vehicleId: int, serviceType: string, notes: string)
    requires IsSlotId(st, slotId) && !IsFullyBooked(SlotOf(st, slotId))
    requires Booking.BookSlot(st, slotId, userId, vehicleId, serviceType, notes).1.Booked?
    ensures var b := Booking.BookSlot(st, slotId, userId, vehicleId, serviceType, notes);
      var c := CancelService(b.0, b.1.serviceId, Customer(userId));
      && c.1 == TicketCancelled
      && c.0.bookings[b.1.bookingId - 1].status == Confirmed
      && SlotOf(c.0, slotId).currentBookings == SlotOf(st, slotId).currentBookings + 1
  {
  }

  /** The ownership test looks only at the numeric id, so an administrator
      whose own id equals the ticket's customer id passes it. */
  lemma AdministratorWithSameNumberMayCancel(st: Store, serviceId: int)
    requires IsServiceId(st, serviceId) && st.services[serviceId - 1].status == Scheduled
    ensures CancelService(st, serviceId, Administrator(st.services[serviceId - 1].userId)).1 == TicketCancelled
    ensures CancelService(st, serviceId, Administrator(st.services[serviceId - 1].userId + 1)).1 == NotOwner
  {
  }
}

=== FILE: settings.dfy ===
/** The admin's slot settings (`manage_slot_settings`). A POST merges the
    supplied fields into the single settings row, creating the row with its
    defaults first if there is none; the slot times are replaced only by a
    non-empty list, and the two numbers are clamped to at least one. Slots
    that already exist are not touched: only later availability queries see
    the new labels and capacity. A GET reports the row with defaults filled
    in. */
module Settings {
  import opened Wrappers
  import opened Dates
  import opened Models
  import Availability

  /** A numeric field of the request: absent, present but refused by
      `int(...)`, or present with its integer value. */
  datatype NumberField = Absent | Unconvertible | Given(value: int)

  /** The JSON body of a POST. `slotTimes` is None when the key is absent;
      a present key whose value is null or empty is `Some([])`. `otherKeys`
      records keys the handler ignores. */
  datatype SettingsRequest = SettingsRequest(
    slotTimes: Option<seq<string>>,
    maxBookingsPerSlot: NumberField,
    bookingAdvanceDays: NumberField,
    otherKeys: bool)

  /** "No data provided", a conversion error that rolls the whole request
      back, or success. */
  datatype UpdateOutcome = NoData | ConversionError | Updated

  /** `not data`: no body, or an empty object. */
  predicate IsEmptyBody(req: Option<SettingsRequest>) {
    req.None? ||
    (req.value.slotTimes.None? && req.value.maxBookingsPerSlot.Absent? &&
     req.value.bookingAdvanceDays.Absent? && !req.value.otherKeys)
  }

  predicate HasUnconvertible(req: SettingsRequest) {
    req.maxBookingsPerSlot.Unconvertible? || req.bookingAdvanceDays.Unconvertible?
  }

  /** `max(1, v)`. */
  function AtLeastOne(v: int): (r: int)
    ensures r >= 1 && r >= v
    ensures r == v || r == 1
  {
    if v < 1 then 1 else v
  }

  /** A numeric field after the merge: the clamped new value if one was
      given, otherwise the old value. */
  function MergeNumber(current: int, f: NumberField): (r: int)
    requires !f.Unconvertible?
    ensures f.Absent? ==> r == current
    ensures f.Given? ==> r >= 1 && (f.value >= 1 ==> r == f.value)
    ensures f.Given? && f.value < 1 ==> r == 1
  {
    match f
    case Absent => current
    case Given(v) => AtLeastOne(v)
  }

  /** The settings row after the merge. */
  function Merge(s: SlotSettings, req: SettingsRequest): (r: SlotSettings)
    requires !HasUnconvertible(req)
    ensures req.slotTimes.Some? && |req.slotTimes.value| > 0 ==>
      r.slotTimes == Decoded(req.slotTimes.value) && r.slotsPerDay == |req.slotTimes.value|
    ensures !(req.slotTimes.Some? && |req.slotTimes.value| > 0) ==>
      r.slotTimes == s.slotTimes && r.slotsPerDay == s.slotsPerDay
    ensures r.maxBookingsPerSlot == MergeNumber(s.maxBookingsPerSlot, req.maxBookingsPerSlot)
    ensures r.advanceDays == MergeNumber(s.advanceDays, req.bookingAdvanceDays)
  {
    var withTimes :=
      if req.slotTimes.Some? && |req.slotTimes.value| > 0
      then s.(slotTimes := Decoded(req.slotTimes.value), slotsPerDay := |req.slotTimes.value|)
      else s;
    withTimes.(maxBookingsPerSlot := MergeNumber(s.maxBookingsPerSlot, req.maxBookingsPerSlot),
               advanceDays := MergeNumber(s.advanceDays, req.bookingAdvanceDays))
  }

  /** The POST branch of `manage_slot_settings`. */
  function UpdateSlotSettings(st: Store, req: Option<SettingsRequest>): (r: (Store, UpdateOutcome))
    ensures r.1 == NoData <==> IsEmptyBody(req)
    ensures r.1 == ConversionError <==> !IsEmptyBody(req) && HasUnconvertible(req.value)
    ensures r.1 != Updated ==> r.0 == st
    ensures r.1 == Updated ==> r.0 == st.(settings := Some(Merge(SettingsInForce(st), req.value)))
  {
    if IsEmptyBody(req) then (st, NoData)
    else if HasUnconvertible(req.value) then (st, ConversionError)
    else (st.(settings := Some(Merge(SettingsInForce(st), req.value))), Updated)
  }

  /** The settings as a GET reports them. */
  datatype SettingsView = SettingsView(
    slotsPerDay: int,
    slotTimes: seq<string>,
    maxBookingsPerSlot: int,
    advanceDays: int)

  /** Python's `x or default` on an integer column. */
  function OrDefault(x: int, default: int): (r: int)
    ensures x != 0 ==> r == x
    ensures x == 0 ==> r == default
  {
    if x == 0 then default else x
  }

  /** The GET branch of `manage_slot_settings`: None ("Settings not found")
      before the row exists. An empty `slot_times` column is reported as an
      empty list, while undecodable text is reported as the default list. */
  function ReadSlotSettings(st: Store): (r: Option<SettingsView>)
    ensures r.Some? <==> st.settings.Some?
    ensures r.Some? ==>
      && r.value.slotsPerDay == OrDefault(st.settings.value.slotsPerDay, 5)
      && r.value.maxBookingsPerSlot == OrDefault(st.settings.value.maxBookingsPerSlot, 1)
      && r.value.advanceDays == OrDefault(st.settings.value.advanceDays, 30)
      && (st.settings.value.slotTimes.Missing? ==> r.value.slotTimes == [])
      && (!st.settings.value.slotTimes.Missing? ==> r.value.slotTimes == EffectiveSlotTimes(st.settings.value.slotTimes))
  {
    match st.settings
    case None => None
    case Some(s) =>
      var times := match s.slotTimes
        case Missing => []
        case Undecodable => DefaultSlotTimes
        case Decoded(labels) => labels;
      Some(SettingsView(OrDefault(s.slotsPerDay, 5), times, OrDefault(s.maxBookingsPerSlot, 1), OrDefault(s.advanceDays, 30)))
  }

  // ---------------------------------------------------------------------
  // Properties

  /** The update keeps every invariant: the stored numbers stay positive. */
  lemma UpdatePreservesValid(st: Store, req: Option<SettingsRequest>)
    requires Valid(st)
    ensures Valid(UpdateSlotSettings(st, req).0)
  {
  }

  /** Sending the same update twice has the effect of sending it once. */
  lemma UpdateIdempotent(st: Store, req: Option<SettingsRequest>)
    ensures var once := UpdateSlotSettings(st, req);
      UpdateSlotSettings(once.0, req) == once
  {
  }

  /** What a POST stores, a GET reads back: the new labels with their count,
      and the clamped numbers. */
  lemma ReadAfterUpdate(st: Store, labels: seq<string>, maxBookings: int, advanceDays: int)
    requires |labels| > 0
    ensures var r := UpdateSlotSettings(st, Some(SettingsRequest(Some(labels), Given(maxBookings), Given(advanceDays), false)));
      && r.1 == Updated
      && ReadSlotSettings(r.0) == Some(SettingsView(|labels|, labels, AtLeastOne(maxBookings), AtLeastOne(advanceDays)))
  {
  }

  /** A request holding only fields that are absent or empty changes no
      setting, though it creates the default row when there is none. */
  lemma EmptyFieldsChangeNothing(st: Store, otherKeys: bool)
    ensures var r := UpdateSlotSettings(st, Some(SettingsRequest(Some([]), Absent, Absent, otherKeys)));
      r.1 == Updated && r.0 == st.(settings := Some(SettingsInForce(st)))
  {
  }

  /** New settings take effect at the next query of a working day: the reply
      lists one slot per new label, in order, and slots created by that query
      get the clamped capacity. Slots created earlier keep their capacity. */
  lemma QueryAfterUpdate(st: Store, labels: seq<string>, maxBookings: int, d: Date)
    requires |labels| > 0
    requires Availability.IsWorkingDay(st, d)
    ensures var u := UpdateSlotSettings(st, Some(SettingsRequest(Some(labels), Given(maxBookings), Absent, false)));
      var q := Availability.GetAvailableSlots(u.0, d);
      && q.1.Open?
      && |q.1.slots| == |labels|
      && (forall k :: 0 <= k < |labels| ==> q.1.slots[k].time == labels[k])
      && q.0.slots[..|st.slots|] == st.slots
      && (forall i :: |st.slots| <= i < |q.0.slots| ==> q.0.slots[i].maxBookings == AtLeastOne(maxBookings))
  {
    var u := UpdateSlotSettings(st, Some(SettingsRequest(Some(labels), Given(maxBookings), Absent, false)));
    assert Availability.LabelsInForce(u.0) == labels;
    assert Availability.CapacityInForce(u.0) == AtLeastOne(maxBookings);
    assert Availability.IsWorkingDay(u.0, d);
  }

  /** The two readers of the `slot_times` column disagree when it is empty:
      a GET reports no labels while availability queries use the default
      five. */
  lemma EmptyColumnReadersDisagree(st: Store)
    requires st.settings.Some? && st.settings.value.slotTimes.Missing?
    ensures ReadSlotSettings(st).value.slotTimes == []
    ensures Availability.LabelsInForce(st) == DefaultSlotTimes
  {
  }
}

=== FILE: text.dfy ===
/** Character classes and decimal numerals shared by the label parser and the
    session-id codec. Digits are the ASCII digits and whitespace is ASCII
    whitespace. */
module Text {

  predicate IsDigit(c: char) {
    '0' <= c <= '9'
  }

  function DigitValue(c: char): (r: int)
    requires IsDigit(c)
    ensures 0 <= r <= 9
  {
    c as int - '0' as int
  }

  function DigitChar(n: int): (c: char)
    requires 0 <= n <= 9
    ensures IsDigit(c) && DigitValue(c) == n
  {
    ('0' as int + n) as char
  }

  /** Space, tab, line feed, vertical tab, form feed and carriage return. */
  predicate IsSpace(c: char) {
    c == ' ' || c == '\t' || c == '\n' || c == '\r' || c as int == 11 || c as int == 12
  }

  /** The ASCII characters the regular-expression class `\s` matches in a
      text pattern: the six above and the four separators 0x1C to 0x1F. */
  predicate IsPatternSpace(c: char) {
    IsSpace(c) || 28 <= c as int <= 31
  }

  predicate StartsWith(s: string, prefix: string) {
    |prefix| <= |s| && s[..|prefix|] == prefix
  }

  predicate AllDigits(s: string) {
    forall k :: 0 <= k < |s| ==> IsDigit(s[k])
  }

  /** The value of a decimal numeral, most significant digit first. */
  function NumeralValue(s: string): (r: nat)
    requires AllDigits(s)
  {
    if |s| == 0 then 0 else NumeralValue(s[..|s| - 1]) * 10 + DigitValue(s[|s| - 1])
  }

  /** The shortest decimal numeral of `n`, as `str(n)` prints it. */
  function Numeral(n: nat): (r: string)
    ensures |r| >= 1 && AllDigits(r)
    ensures |r| > 1 ==> r[0] != '0'
    decreases n
  {
    if n < 10 then [DigitChar(n)] else Numeral(n / 10) + [DigitChar(n % 10)]
  }

  /** Reading a printed numeral gives back the number. */
  lemma {:induction false} NumeralValueOfNumeral(n: nat)
    ensures NumeralValue(Numeral(n)) == n
    decreases n
  {
    if n >= 10 {
      var s := Numeral(n);
      assert s[..|s| - 1] == Numeral(n / 10);
      NumeralValueOfNumeral(n / 10);
    }
  }
}

=== FILE: wrappers.dfy ===
/** The optional-value datatype shared by every module of the model. A `None`
    stands for a database lookup that found no row or a parse that failed. */
module Wrappers {

  datatype Option<+T> = None | Some(value: T) {

    /** Returns the value held in Some, or the given default for None. */
    function GetOr(default: T): (r: T)
      ensures Some? ==> r == value
      ensures None? ==> r == default
    {
      match this
      case Some(v) => v
      case None => default
    }
  }
}
